=== FILE: README.md ===
# Skill swap: a Dafny model of the domain logic

This project models the domain logic of the skill swap web application.
People publish a profile listing the skills they offer, the skills they want
and when they are available. They browse other people's public profiles and
send each other swap requests, which the recipient accepts or rejects.

The application has two halves, and both are modelled:

- **The browser-local half.** This is the mock session (`AuthContext`), the
  requests page and the admin panel. Its state lives in browser storage,
  modelled here as a map from keys to parsed entries (`Records.Store`).
- **The hosted half.** This is the newer front end's profile editor, the
  two Browse pages with their search, availability filter and pagination,
  sending a request from a card, and the notification edge function. The
  database rows are `Tables.ProfileRow` and `Tables.RequestRow`. Every call
  to the hosted database or file storage becomes a parameter: a flag for
  whether the write succeeded, the fetched rows, the public address of an
  uploaded file.

Modules, one per concern of the program:

| module | file | models |
|---|---|---|
| `Optional` | optional.dfy | `Option` and `Result` |
| `Seqs` | seqs.dfy | `Array.prototype.filter`, counting, subsequences, and the laws they obey |
| `Text` | text.dfy | `toLowerCase` (ASCII letters), `includes`, `startsWith`, `trim`, `n.toString()`, `split('.').pop()` |
| `Records` | records.dfy | the browser storage records and keys |
| `Requests` | requests.dfy | src/pages/Requests.tsx |
| `Session` | session.dfy | src/contexts/AuthContext.tsx |
| `AdminPanel` | admin.dfy | src/pages/Admin.tsx |
| `Tables` | tables.dfy | the `profiles` and `swap_requests` rows |
| `Directory` | directory.dfy | loading and filtering profiles on both Browse pages |
| `Paging` | paging.dfy | pagination on src/pages/Browse.tsx |
| `Outgoing` | outgoing.dfy | `sendSwapRequest` on both Browse pages |
| `ProfileEditor` | profile_editor.dfy | frontend/src/pages/Profile.tsx |
| `Notify` | notify.dfy | supabase/functions/send-email-notification/index.ts |
| `Mount` | mount.dfy | what the admin guard and the older Browse load see on a full page load, before the session is restored |

The model follows the code as written. Where the code is looser than the
design rules, the model keeps the looser behaviour and proves a lemma that
shows it:

- No status is terminal. Accept after reject simply overwrites the status
  (`Requests.AcceptAfterReject`).
- Accepting twice is not an error. It is idempotent (`Requests.AcceptIdempotent`).
- The handlers check neither who the viewer is nor the current status. The
  only guard is that the Accept, Reject and Delete buttons are rendered only
  on pending requests of the right list. That guard is modelled as the
  precondition of `Requests.ClickAccept`, `Requests.ClickReject` and
  `Requests.ClickDelete`.
- Nothing stops a request to oneself. `Requests.SentReceivedCover` states
  what happens to such a request: it appears in both lists.
- The directory keeps the table's order: `Directory.LoadCardsInRowOrder` states that the cards follow the listed rows in row order. It does not sort by name.

## Model

| member | source | states |
|---|---|---|
| Requests.Sent | src/pages/Requests.tsx:36 | the sent list holds exactly the stored requests whose sender is the signed-in viewer, each as often as it is stored and in stored order; with nobody signed in it is empty |
| Requests.Received | src/pages/Requests.tsx:37 | the received list holds exactly the stored requests addressed to the viewer, each as often as it is stored and in stored order; with nobody signed in it is empty |
| Requests.AnswerOffered | src/pages/Requests.tsx:111-128 | Accept and Reject are rendered exactly on a pending request of the received list |
| Requests.WithdrawOffered | src/pages/Requests.tsx:170-182 | the delete button is rendered exactly on a pending request of the sent list |
| Requests.SetStatus | src/pages/Requests.tsx:40-42 | every request carrying the id gets the new status; every other request stays where it was, unchanged; the length is kept |
| Requests.Accept | src/pages/Requests.tsx:39-51 | accepting changes the status of exactly the requests carrying the id, and nothing else |
| Requests.Reject | src/pages/Requests.tsx:53-64 | rejecting changes the status of exactly the requests carrying the id, and nothing else |
| Requests.Delete | src/pages/Requests.tsx:66-75 | deleting removes every request carrying the id and keeps all others in order; the list shrinks by the number of requests carrying the id |
| Requests.ClickAccept | src/pages/Requests.tsx:128-131 | Accept on a pending received request leaves it accepted in the received list, where no Accept or Reject button is offered for it any more; requests with other ids survive |
| Requests.ClickReject | src/pages/Requests.tsx:128-139 | Reject on a pending received request leaves it rejected in the received list, with no further answer offered; requests with other ids survive |
| Requests.ClickDelete | src/pages/Requests.tsx:182-184 | withdrawing a pending sent request removes it from storage and from the sent list; the list gets strictly shorter; requests with other ids survive |
| Requests.LastStatusWins | src/pages/Requests.tsx:40-42 | two status changes on one id amount to the second alone |
| Requests.AcceptIdempotent | src/pages/Requests.tsx:39-51 | accepting twice is the same as accepting once |
| Requests.RejectIdempotent | src/pages/Requests.tsx:53-64 | rejecting twice is the same as rejecting once |
| Requests.AcceptAfterReject | src/pages/Requests.tsx:39-64 | a rejected request that is then accepted ends up as if only accepted: the handlers treat no status as final |
| Requests.SentIgnoresStatus | src/pages/Requests.tsx:36-42 | a status change commutes with taking the sent list: no request moves into or out of it |
| Requests.ReceivedIgnoresStatus | src/pages/Requests.tsx:37-42 | a status change commutes with taking the received list |
| Requests.SentAfterDelete | src/pages/Requests.tsx:36-67 | deleting by id commutes with taking the sent list |
| Requests.SentReceivedCover | src/pages/Requests.tsx:36-37 | every request that names the viewer on either side is in one of the two lists, and a request is in both exactly when it is self-addressed |
| Requests.SentReceivedPartition | src/pages/Requests.tsx:36-37 | without self-addressed requests the two lists together are as long as the number of requests that name the viewer |
| Records.ProfileKeysAreDistinct | src/pages/Admin.tsx:53 | a `profile_` key never equals the session key or the request list key |
| Records.StoredRequests | src/pages/Requests.tsx:32 | the request list is the one stored under `swap_requests`, and empty when the key is absent |
| Session.Restore | src/contexts/AuthContext.tsx:33-39 | on mount the session is signed in exactly when a user is saved under `skillswap_user`, and then it is that user |
| Session.IsAuthenticated | src/contexts/AuthContext.tsx:93 | signed in exactly when a user is present |
| Session.IsAdmin | src/contexts/AuthContext.tsx:94 | an administrator exactly when a user is present and has the admin role |
| Session.MockAccount | src/contexts/AuthContext.tsx:48-53 | the mock login always hands out id `"1"` with the given address; it is an administrator named "Admin User" exactly for `admin@skillswap.com`, otherwise a member named "John Doe" |
| Session.SignIn | src/contexts/AuthContext.tsx:55-60 | the user is set before the write; a successful write saves it under the session key and leaves every other key alone; a failing write leaves storage untouched and answers false |
| Session.Login | src/contexts/AuthContext.tsx:41-61 | login signs in the mock account for the address; it is an administrator exactly for the admin address; a successful write saves that account; every other storage key keeps its entry, and a failed write leaves storage untouched |
| Session.Register | src/contexts/AuthContext.tsx:63-81 | registration signs in a member with the given name and address, whose id is `Date.now().toString()` and reads back as the clock value; never an administrator; a successful write saves that user; every other storage key keeps its entry, and a failed write leaves storage untouched |
| Session.Logout | src/contexts/AuthContext.tsx:83-86 | logout signs out and removes only the session key |
| Session.AdminIsAuthenticated | src/contexts/AuthContext.tsx:93-94 | only a signed-in user can be an administrator |
| Session.LoginSurvivesReload | src/contexts/AuthContext.tsx:33-61 | after a successful login, a reload resumes the same user |
| Session.RegisterSurvivesReload | src/contexts/AuthContext.tsx:33-81 | after a successful registration, a reload resumes the same user |
| Session.LogoutSurvivesReload | src/contexts/AuthContext.tsx:33-86 | after logout, a reload finds nobody signed in |
| Session.LoginIgnoresPassword | src/contexts/AuthContext.tsx:41-53 | the outcome of login does not depend on the password |
| Text.Trim | frontend/src/pages/Profile.tsx:184 | the result is the input with a white-space-only prefix and suffix cut off, begins and ends with a non-space character, and is empty exactly when the input is all white space |
| Text.TrimIdempotent | frontend/src/pages/Profile.tsx:198 | trimming a trimmed name changes nothing |
| Text.Lower | frontend/src/pages/Browse.tsx:94-100 | `toLowerCase` keeps the length, leaves no ASCII capital, maps each capital to its small letter and leaves every other character alone |
| Text.DecimalRoundTrip | src/contexts/AuthContext.tsx:69 | the decimal spelling of the clock reads back as the same number |
| Text.DecimalInjective | src/contexts/AuthContext.tsx:69 | distinct clock readings give distinct ids |
| Text.LastSegment | frontend/src/pages/Profile.tsx:125 | the extension is the dot-free tail of the file name after its last dot, or the whole name when it has no dot |
| Text.LastSegmentAfterDot | frontend/src/pages/Profile.tsx:125-126 | after a name ending in a dot, a dot-free tail is what `split('.').pop()` returns |
| AdminPanel.SlotIdIsDecimal | src/pages/Admin.tsx:56 | the id given to slot `i` is the decimal spelling of `i`, `"1"` to `"10"` |
| AdminPanel.SlotIdInjective | src/pages/Admin.tsx:56 | distinct slots get distinct ids |
| AdminPanel.LoadProfilesFrom | src/pages/Admin.tsx:52-58 | scanning slots `i..10` yields at most one profile per slot |
| AdminPanel.LoadProfilesStored | src/pages/Admin.tsx:52-58 | each loaded profile is the profile stored under its own id's key, with only the id replaced |
| AdminPanel.LoadedIdsFrom | src/pages/Admin.tsx:52-56 | profiles loaded from slot `i` on carry ids of slots `i` and up |
| AdminPanel.LoadedIdsDistinctFrom | src/pages/Admin.tsx:52-56 | profiles loaded from slot `i` on have pairwise distinct ids |
| AdminPanel.LoadProfilesComplete | src/pages/Admin.tsx:52-58 | every slot from `i` on that holds a profile shows up in the scan |
| AdminPanel.LoadData | src/pages/Admin.tsx:49-64 | the panel shows at most ten profiles |
| AdminPanel.LoadedInSlotOrderFrom | src/pages/Admin.tsx:51-58 | the loop pushes profiles in slot order: each loaded id reads back as a slot number, and the numbers increase along the list |
| AdminPanel.LoadDataSound | src/pages/Admin.tsx:49-64 | the loaded profiles are exactly the filled slots: each id is a slot id naming a stored profile, no two share an id, no filled slot is missed; the requests are the stored list, or empty when there is none |
| AdminPanel.PublicProfiles | src/pages/Admin.tsx:131-152 | the public count is the number of loaded profiles marked public, so at most the profile count; it equals the profile count exactly when all are public, and is zero exactly when none is |
| AdminPanel.PublicShortfall | src/pages/Admin.tsx:152 | one private profile makes the public count smaller than the profile count |
| AdminPanel.DeleteUser | src/pages/Admin.tsx:66-80 | deleting a user removes the user's profile key and no other key; the list written under `swap_requests` keeps exactly the held requests that do not name the user, every one of them, in order; the panel is reloaded with `loadData` from the new storage, so it shows every remaining filled slot and no longer shows the user |
| AdminPanel.Mentions | src/pages/Admin.tsx:71 | a request names the user when the user is its sender or its recipient |
| AdminPanel.DeleteRequest | src/pages/Admin.tsx:82-91 | deleting a request keeps exactly the held requests with other ids, every one of them, in order, and writes them back; profiles and other keys stay as they were |
| AdminPanel.OpenAdmin | src/pages/Admin.tsx:41-47 | given the `isAdmin` flag the guard effect reads, a visitor for whom it is false is redirected, and otherwise the panel shows exactly `loadData`'s result: every listed profile is the stored profile of one of the ten slots, every filled slot is listed, and the requests are the stored list (which flag a reload reads is `Mount.OpenAdminOnLoad`) |
| Tables.Greeting | frontend/src/pages/Browse.tsx:116 | the request message is the fixed opening, the name, and the fixed closing, in that order |
| Tables.GreetingInjective | frontend/src/pages/Browse.tsx:116 | two greetings are equal exactly when they address the same name |
| Directory.ToCard | frontend/src/pages/Browse.tsx:78-87 | a card takes the row's user id and name, copies a present location and present lists, reads a missing location as empty and missing lists as empty lists, and is public exactly when the row is |
| Directory.Listed | frontend/src/pages/Browse.tsx:70-71 | a row is listed when it is public and its user id differs from `user?.id || ''` |
| Directory.LoadCards | frontend/src/pages/Browse.tsx:66-90 | one card per listed row; every card is public and never the viewer's own |
| Directory.LoadCardsInRowOrder | frontend/src/pages/Browse.tsx:66-90 | the cards come in the order of the table's rows: the k-th card is the k-th listed row, so nothing is re-sorted |
| Directory.LoadCardsFromRows | frontend/src/pages/Browse.tsx:70-87 | the loaded cards are exactly the listed rows as cards: every card comes from a public row of another user, and every such row gives a card |
| Directory.OwnCardNeverLoaded | frontend/src/pages/Browse.tsx:71 | a load built with the viewer's id never yields the viewer's own card (which id a reload builds it with is `Mount.BrowseOnLoad`) |
| Directory.FilteredCards | frontend/src/pages/Browse.tsx:92-103 | a card is shown exactly when it matches the search and the availability filter, as often as it is loaded; order is kept |
| Directory.SearchResults | src/pages/Browse.tsx:95-104 | a card is shown exactly when it matches the search, as often as it is loaded; order is kept |
| Directory.MatchesSearch | frontend/src/pages/Browse.tsx:93-97 | an empty term matches every card; otherwise the lower-cased term must occur in the lower-cased name, some offered skill, some wanted skill or the location |
| Directory.MatchesAvailability | frontend/src/pages/Browse.tsx:99-100 | "all" matches every card; otherwise some availability entry, lower-cased, must contain the lower-cased choice |
| Directory.NoFilterShowsAll | frontend/src/pages/Browse.tsx:93-99 | an empty search with availability "all" shows every loaded card in order, on both pages |
| Directory.FilteredIsSearchThenAvailability | frontend/src/pages/Browse.tsx:92-103 | the newer page's filter is the older page's search followed by the availability filter; with "all" the two pages show the same cards |
| Directory.SearchIgnoresCase | frontend/src/pages/Browse.tsx:93-97 | terms that differ only in letter case select the same cards |
| Directory.FoundByOwnName | frontend/src/pages/Browse.tsx:94 | a card is found by its own name typed in any letter case |
| Directory.AnyIncludesPrefix | frontend/src/pages/Browse.tsx:95-96 | if some skill contains a term, it contains every prefix of that term |
| Directory.LongerTermNarrows | src/pages/Browse.tsx:95-104 | typing more characters never brings a card back |
| Paging.TotalPages | src/pages/Browse.tsx:107 | the page count is the least number of six-card pages that holds the list, and zero exactly for an empty list |
| Paging.Slice | src/pages/Browse.tsx:109 | `slice` clamps both bounds to the length: a range inside the list is that run, a range running past the end is the rest of the list, and a range starting past the end is empty |
| Paging.PageOf | src/pages/Browse.tsx:108-109 | page `p` holds at most six cards; an existing page is non-empty and is the run of cards starting at `(p - 1) * 6`; a page past the last is empty |
| Paging.PagesFromSuffix | src/pages/Browse.tsx:107-109 | pages `p` to the last, read in order, are the cards from `(p - 1) * 6` on |
| Paging.PagesCoverAll | src/pages/Browse.tsx:107-109 | reading every page in order gives back the whole list |
| Paging.AfterClick | src/pages/Browse.tsx:285-304 | Previous stops at page 1, Next stops at the last page, and the `i`-th numbered button goes to page `i + 1` |
| Paging.ClicksKeepCardsOnScreen | src/pages/Browse.tsx:280-304 | from a page that exists, any pager click lands on a page with cards |
| Paging.View | src/pages/Browse.tsx:181-321 | as written: the pager is drawn exactly when there is more than one page, the "no profiles" message exactly when nothing matches, an existing page shows cards, and the cards shown are the slice from `(currentPage-1)*6` to `currentPage*6` of the filtered list |
| Paging.StalePageHidesMatch | src/pages/Browse.tsx:169 | as written: after a narrowing search the page number can outlive the pages, and a match is then hidden with neither pager nor message |
| Paging.ClampPage | src/pages/Browse.tsx:169 | corrected: the page number kept when the search changes is clamped into `1..total`, and an existing page is left alone |
| Paging.ClampedView | src/pages/Browse.tsx:106-109 | corrected: whenever something matches, some card is on screen; on an existing page it is the view as written |
| Paging.SearchScreen | src/pages/Browse.tsx:95-109 | corrected: only matching cards are shown; some are shown whenever any card matches; the message appears exactly when none matches |
| Outgoing.SenderName | frontend/src/pages/Browse.tsx:113 | the sender name is the user's name when that is not empty, and `"User"` when it is |
| Outgoing.CanSend | frontend/src/pages/Browse.tsx:106 | a request can be sent only when a user is signed in with a non-empty id |
| Outgoing.SendRequest | frontend/src/pages/Browse.tsx:105-151 | nobody signed in sends nothing; otherwise a pending request from the user to the card's person with the greeting is inserted; a notice follows a successful insert exactly when the recipient has an address, and carries the sender, recipient and message |
| Outgoing.SendRequestPlain | src/pages/Browse.tsx:111-140 | the older page inserts the same pending record with the user's name copied as it is, and sends no notice |
| Outgoing.PagesAgreeOnNamedSender | src/pages/Browse.tsx:116 | the two pages insert the same record exactly when the sender's name is not empty |
| Outgoing.NoticeGreetsTarget | frontend/src/pages/Browse.tsx:133-144 | the mail that follows a request greets the card's person, names the sender, quotes the greeting, and links to the requests page |
| Notify.SiteUrl | supabase/functions/send-email-notification/index.ts:58 | the link base is `SITE_URL` when it is set and non-empty, and `http://localhost:8080` otherwise |
| Notify.Template | supabase/functions/send-email-notification/index.ts:46-99 | a new request greets its recipient and quotes the message; an accept or reject greets the sender and names the recipient; the links go to requests or browse; an unknown type gives empty content |
| Notify.Handle | supabase/functions/send-email-notification/index.ts:21-140 | a preflight gets 200 "ok"; a readable body gets 200 with the template's preview; an unreadable one gets 400 with the error message |
| Notify.PreflightIgnoresBody | supabase/functions/send-email-notification/index.ts:23-25 | the preflight answer does not depend on the body |
| Notify.AnswerAddressesSender | supabase/functions/send-email-notification/index.ts:52-90 | the request mail and the answer mail address opposite parties |
| ProfileEditor.Initial | frontend/src/pages/Profile.tsx:28-41 | the editor starts public, with no skills, no availability, no stored row, and the user's name; the location, the picture and both new-skill inputs are empty |
| ProfileEditor.AddSkill | frontend/src/pages/Profile.tsx:251-259 | non-blank input is appended trimmed and the input is cleared; blank input changes nothing |
| ProfileEditor.RemoveSkill | frontend/src/pages/Profile.tsx:271-276 | every copy of the skill is removed and every other entry stays, duplicates included, in order; an absent skill changes nothing |
| ProfileEditor.AddThenRemove | frontend/src/pages/Profile.tsx:251-276 | adding a skill and then removing it is the same as removing it alone |
| ProfileEditor.AddSkillOffered | frontend/src/pages/Profile.tsx:251-259 | only the offered list and its input change |
| ProfileEditor.AddSkillWanted | frontend/src/pages/Profile.tsx:261-269 | only the wanted list and its input change |
| ProfileEditor.AddedSkillIsTrimmed | frontend/src/pages/Profile.tsx:252-255 | every added skill is non-empty and has no white space at either end |
| ProfileEditor.Toggle | frontend/src/pages/Profile.tsx:285-292 | the option ends up present exactly when it was absent; other options are unaffected; an absent option is appended; a present one is removed with every copy while the other entries keep their order and copies |
| ProfileEditor.ToggleTwiceAbsent | frontend/src/pages/Profile.tsx:285-292 | toggling an absent option twice restores the list |
| ProfileEditor.ToggleTwicePresent | frontend/src/pages/Profile.tsx:285-292 | toggling a present option twice moves it, as one copy, to the end |
| ProfileEditor.CheckImage | frontend/src/pages/Profile.tsx:101-119 | a file passes exactly when its type starts with `image/` and it is at most 5 MiB; the type is checked first |
| ProfileEditor.SizeCapIsInclusive | frontend/src/pages/Profile.tsx:112 | an image of exactly 5 MiB passes and one byte more is refused |
| ProfileEditor.UploadPath | frontend/src/pages/Profile.tsx:125-127 | the path is exactly `profile-pictures/<user id>-<time>.` followed by the picked file's extension |
| ProfileEditor.UploadKeepsExtension | frontend/src/pages/Profile.tsx:125-127 | the stored file has the same extension as the picked file |
| ProfileEditor.UploadImage | frontend/src/pages/Profile.tsx:97-172 | with no file or nobody signed in nothing happens; a file failing a check is refused before upload; only a successful upload changes the editor, and only its picture |
| ProfileEditor.NullIfEmpty | frontend/src/pages/Profile.tsx:200 | an empty text becomes null, and reading null back as empty gives the text again |
| ProfileEditor.SaveRow | frontend/src/pages/Profile.tsx:196-206 | the saved row carries the user's id and address, the trimmed name and the form's fields, with empty texts stored as null |
| ProfileEditor.Save | frontend/src/pages/Profile.tsx:174-249 | saving is refused when nobody is signed in or the name is blank; otherwise the row is written as an update exactly when a stored row was found; after a successful write the editor knows a row exists; the form is never changed |
| ProfileEditor.FromRow | frontend/src/pages/Profile.tsx:75-83 | the form takes the row's name, or the user's when it is empty; it is public unless stored as exactly false; present location, lists and picture are copied, and missing ones read as empty |
| ProfileEditor.LoadProfile | frontend/src/pages/Profile.tsx:58-95 | nobody signed in or a failed query leaves the editor alone; a found row fills the form; no row keeps the form and takes the user's name |
| ProfileEditor.LoadAfterSave | frontend/src/pages/Profile.tsx:75-83 | loading a saved row gives back the form, with its name trimmed |
| ProfileEditor.SaveThenReload | frontend/src/pages/Profile.tsx:58-249 | after a successful save, a reload shows what was saved |
| ProfileEditor.SavedProfileIsListed | frontend/src/pages/Profile.tsx:196-206 | a saved public profile is listed to every other visitor of the directory, and its card shows what the form held |
| Mount.FirstRender | src/contexts/AuthContext.tsx:31 | the first render sees nobody signed in, whatever the storage holds |
| Mount.ViewerId | src/pages/Browse.tsx:74 | the viewer id is present exactly when somebody is signed in, and is their id |
| Mount.OpenAdminOnLoad | src/pages/Admin.tsx:41-47 | as written: on a full page load the guard reads the first render's `isAdmin`, so the visitor is always redirected |
| Mount.OpenAdminAfterRestore | src/contexts/AuthContext.tsx:33-39 | corrected: the guard reads the restored session, so exactly a saved administrator sees the panel, with the loaded data |
| Mount.AdminRedirectedOnReload | src/pages/Admin.tsx:41-47 | as written: a saved administrator is redirected on a reload, although the restored session is an administrator's and the corrected guard shows the panel |
| Mount.BrowseOnLoad | src/pages/Browse.tsx:45-74 | as written: the one-off load and every realtime reload filter with the first render's viewer, that is with no viewer |
| Mount.BrowseAfterRestore | src/pages/Browse.tsx:69-74 | corrected: the load is the directory query under the restored user's id; it never lists that user's own card and lists every other user's public card |
| Mount.OwnCardListedOnReload | src/pages/Browse.tsx:45-74 | as written: a signed-in user with a public profile sees their own card after a reload, which the corrected load never shows |

## Findings

| source | as written | input that shows it | evidently intended | confidence | as-written member | corrected member |
|---|---|---|---|---|---|---|
| src/pages/Browse.tsx:169 | typing in the search box changes the term but not `currentPage`, and nothing clamps the page to the new `totalPages` | 13 profiles, go to page 3, then type a term that one profile matches: page 3 of a one-card list is empty, the pager is hidden (one page), and so is the "no profiles" message (one match) | the page is reset or clamped when the filtered list shrinks, so that a match is always visible | not executed | Paging.StalePageHidesMatch | Paging.SearchScreen |
| src/pages/Admin.tsx:41-47 | the guard effect reads `isAdmin` from the render it belongs to, and on a full page load that is the first render, where the session provider still holds `null` (src/contexts/AuthContext.tsx:31) because it restores the saved user only in its own effect (:33-39) | an administrator signed in earlier reloads `/admin`: the first render's `isAdmin` is false, the effect calls `navigate('/')`, and the panel is never shown | the guard waits for the restored session, so a saved administrator sees the panel | not executed | Mount.AdminRedirectedOnReload | Mount.OpenAdminAfterRestore |
| src/pages/Browse.tsx:45-74 | the effect with an empty dependency list calls `loadProfiles` once, and it and the realtime callback close over the first render's `user`, which on a full page load is `null`, so the query excludes `user_id = ''` | a signed-in user whose profile row is public reloads the Browse page: their own card is listed among the others | the load excludes the restored user's own profile | not executed | Mount.OwnCardListedOnReload | Mount.BrowseAfterRestore |

## Left out

- Network, database and file storage calls are parameters. This covers the fetched rows, the write and upload outcomes, the uploaded file's public address and the recipient address lookup.
- The `getUserEmail` and `sendEmailNotification` helpers are not part of this model. A notice is modelled as the payload handed to the edge function.
- The clock is a parameter. `Date.now()` is the `now` argument of `Session.Register` and `ProfileEditor.UploadPath`.
- The one-second delay of the mock login and registration is not modelled.
- Randomness is left out: the random star rating on the Browse cards is not modelled.
- Realtime profile-change subscriptions only trigger a reload. The reload calls the closure of the first render, so it is `Mount.BrowseOnLoad` again.
- Toasts, console logging and the emailed HTML markup are left out. The markup is reduced to the parts that vary (`Notify.Content`).
- The admin broadcast prompt changes no state. The `statusFilter` select on the older Browse page sets `statusFilter`, but nothing reads that value, so it is left out.
- JSON parsing is left out. Browser storage holds parsed entries, and an entry of the wrong kind under a key reads as absent.
- Directory.LoadCards: a failed profile query leaves the previous list on screen. The model takes the rows of a successful query only.
- The older page's `sendSwapRequest` is not wired to any button there. `Outgoing.SendRequestPlain` models it as written.
- Notify.Handle: the `html` field of the payload is never used, and the mail is only logged. A failure of the client set-up is folded into the parse error.
- Text.Lower: `toLowerCase` is modelled on ASCII letters only. Other letters are left as they are.
- Outgoing.SendRequest: the mail subject uses `user.name` without the `'User'` default, so an unnamed sender gives a subject ending in "from ". This is modelled as written.
- The newer front end's session provider, frontend/src/contexts/AuthContext.tsx, is not part of this model. So `Mount` covers only the older pages, which use src/contexts/AuthContext.tsx.

=== FILE: admin.dfy ===
/** The admin panel: it reads the profiles stored under the fixed slots
    `profile_1` .. `profile_10` and the request list from browser storage,
    shows counts, and lets an administrator delete a user (with every
    request that names them) or a single request. */
module AdminPanel {
  import opened Records
  import opened Seqs
  import opened Text
  import Requests

  /** `loadData` scans the slots `1..LastSlot`. */
  const LastSlot: nat := 10

  /** The id `loadData` gives the profile it finds in slot `i`
      (`i.toString()`): one digit for slots 1 to 9, `"10"` for the last. */
  function SlotId(i: nat): string
    requires 1 <= i <= LastSlot
  {
    if i < 10 then [('0' as int + i) as char] else "10"
  }

  /** The ten ids, `"1"` to `"10"`, are the decimal spellings of the slot
      numbers. */
  lemma SlotIdIsDecimal()
    ensures forall j :: 1 <= j <= LastSlot ==> SlotId(j) == DecimalString(j)
    ensures forall j :: 1 <= j <= LastSlot ==> SlotId(j) == ["1", "2", "3", "4", "5", "6", "7", "8", "9", "10"][j - 1]
  {
    assert DecimalString(10) == DecimalString(1) + "0";
  }

  /** Distinct slots have distinct ids. */
  lemma SlotIdInjective(a: nat, b: nat)
    requires 1 <= a < b <= LastSlot
    ensures SlotId(a) != SlotId(b)
  {
    if b < 10 {
      assert SlotId(a)[0] != SlotId(b)[0];
    } else {
      assert |SlotId(a)| != |SlotId(b)|;
    }
  }

  /** `id` is the id of one of the slots. */
  predicate IsSlotId(id: string) {
    IsSlotIdFrom(id, 1)
  }

  predicate HasProfileAt(store: Store, key: string) {
    key in store && store[key].ProfileEntry?
  }

  /** The profiles of slots `i..LastSlot`, in slot order, each with its id
      replaced by its slot number (`{ ...parsedProfile, id: i.toString() }`). */
  function LoadProfilesFrom(store: Store, i: nat): (ps: seq<LocalProfile>)
    requires 1 <= i <= LastSlot + 1
    ensures |ps| <= LastSlot + 1 - i
    decreases LastSlot + 1 - i
  {
    if i > LastSlot then []
    else
      var rest := LoadProfilesFrom(store, i + 1);
      var key := ProfileKey(SlotId(i));
      if HasProfileAt(store, key) then [store[key].profile.(id := SlotId(i))] + rest else rest
  }

  /** One step of the loader, spelled out. */
  lemma LoadProfilesStep(store: Store, i: nat)
    requires 1 <= i <= LastSlot
    ensures var key := ProfileKey(SlotId(i));
            LoadProfilesFrom(store, i) ==
              (if HasProfileAt(store, key) then [store[key].profile.(id := SlotId(i))] else [])
              + LoadProfilesFrom(store, i + 1)
  {
  }

  /** Each loaded profile is the profile stored under its own id's key,
      with only the id replaced. */
  lemma {:induction false} LoadProfilesStored(store: Store, i: nat)
    requires 1 <= i <= LastSlot + 1
    ensures var ps := LoadProfilesFrom(store, i);
            forall k :: 0 <= k < |ps| ==>
              && HasProfileAt(store, ProfileKey(ps[k].id))
              && ps[k] == store[ProfileKey(ps[k].id)].profile.(id := ps[k].id)
    decreases LastSlot + 1 - i
  {
    if i <= LastSlot {
      LoadProfilesStored(store, i + 1);
      LoadProfilesStep(store, i);
      var rest := LoadProfilesFrom(store, i + 1);
      var ps := LoadProfilesFrom(store, i);
      var key := ProfileKey(SlotId(i));
      if HasProfileAt(store, key) {
        assert ps == [store[key].profile.(id := SlotId(i))] + rest;
        assert forall k :: 1 <= k < |ps| ==> ps[k] == rest[k - 1];
      } else {
        assert ps == rest;
      }
    }
  }

  /** `id` is the id of one of the slots `i..LastSlot`. */
  predicate IsSlotIdFrom(id: string, i: nat) {
    exists j | i <= j <= LastSlot :: 1 <= j && SlotId(j) == id
  }

  /** The profiles loaded from slot `i` on carry ids of slots `i` and up. */
  lemma {:induction false} LoadedIdsFrom(store: Store, i: nat)
    requires 1 <= i <= LastSlot + 1
    ensures var ps := LoadProfilesFrom(store, i);
            forall k :: 0 <= k < |ps| ==> IsSlotIdFrom(ps[k].id, i)
    decreases LastSlot + 1 - i
  {
    if i <= LastSlot {
      LoadedIdsFrom(store, i + 1);
      LoadProfilesStep(store, i);
      var rest := LoadProfilesFrom(store, i + 1);
      var ps := LoadProfilesFrom(store, i);
      forall k | 0 <= k < |ps|
        ensures IsSlotIdFrom(ps[k].id, i)
      {
        if HasProfileAt(store, ProfileKey(SlotId(i))) && k == 0 {
          assert ps[0].id == SlotId(i);
        } else {
          var k' := if HasProfileAt(store, ProfileKey(SlotId(i))) then k - 1 else k;
          assert ps[k] == rest[k'];
          var j :| i + 1 <= j <= LastSlot && 1 <= j && SlotId(j) == rest[k'].id;
        }
      }
    }
  }

  /** The profiles loaded from slot `i` on have pairwise distinct ids. */
  lemma {:induction false} LoadedIdsDistinctFrom(store: Store, i: nat)
    requires 1 <= i <= LastSlot + 1
    ensures var ps := LoadProfilesFrom(store, i);
            forall k, l :: 0 <= k < l < |ps| ==> ps[k].id != ps[l].id
    decreases LastSlot + 1 - i
  {
    if i <= LastSlot {
      LoadedIdsDistinctFrom(store, i + 1);
      LoadedIdsFrom(store, i + 1);
      LoadProfilesStep(store, i);
      var rest := LoadProfilesFrom(store, i + 1);
      var ps := LoadProfilesFrom(store, i);
      if HasProfileAt(store, ProfileKey(SlotId(i))) {
        assert forall k :: 1 <= k < |ps| ==> ps[k] == rest[k - 1];
        forall l | 1 <= l < |ps|
          ensures ps[0].id != ps[l].id
        {
          var j :| i + 1 <= j <= LastSlot && 1 <= j && SlotId(j) == rest[l - 1].id;
          SlotIdInjective(i, j);
        }
      } else {
        assert ps == rest;
      }
    }
  }

  /** Some profile in `ps` carries the id `id`. */
  predicate Lists(ps: seq<LocalProfile>, id: string) {
    exists k :: 0 <= k < |ps| && ps[k].id == id
  }

  /** No stored profile in slots `i..LastSlot` is missed. */
  lemma {:induction false} LoadProfilesComplete(store: Store, i: nat, j: nat)
    requires 1 <= i <= j <= LastSlot
    requires HasProfileAt(store, ProfileKey(SlotId(j)))
    ensures Lists(LoadProfilesFrom(store, i), SlotId(j))
    decreases j - i
  {
    var ps := LoadProfilesFrom(store, i);
    var rest := LoadProfilesFrom(store, i + 1);
    LoadProfilesStep(store, i);
    var found := HasProfileAt(store, ProfileKey(SlotId(i)));
    if j == i {
      assert ps[0].id == SlotId(j);
    } else {
      LoadProfilesComplete(store, i + 1, j);
      var k :| 0 <= k < |rest| && rest[k].id == SlotId(j);
      if found {
        assert ps[k + 1] == rest[k];
      } else {
        assert ps[k] == rest[k];
      }
    }
  }

  /** The loaded ids are slot ids, and each names a stored profile. */
  lemma LoadedIdsAreSlots(store: Store)
    ensures var ps := LoadProfilesFrom(store, 1);
            forall k :: 0 <= k < |ps| ==> IsSlotId(ps[k].id) && HasProfileAt(store, ProfileKey(ps[k].id))
  {
    LoadProfilesStored(store, 1);
    LoadedIdsFrom(store, 1);
  }

  /** No two loaded profiles share an id. */
  lemma LoadedIdsDistinct(store: Store)
    ensures var ps := LoadProfilesFrom(store, 1);
            forall k, l :: 0 <= k < l < |ps| ==> ps[k].id != ps[l].id
  {
    LoadedIdsDistinctFrom(store, 1);
  }

  /** Every stored profile of slots `1..LastSlot` is loaded. */
  lemma LoadedAll(store: Store)
    ensures forall j :: 1 <= j <= LastSlot && HasProfileAt(store, ProfileKey(SlotId(j))) ==>
              Lists(LoadProfilesFrom(store, 1), SlotId(j))
  {
    forall j | 1 <= j <= LastSlot && HasProfileAt(store, ProfileKey(SlotId(j)))
      ensures Lists(LoadProfilesFrom(store, 1), SlotId(j))
    {
      LoadProfilesComplete(store, 1, j);
    }
  }

  /** What the panel holds after `loadData`. */
  datatype Panel = Panel(profiles: seq<LocalProfile>, requests: seq<SwapRequest>)

  /** `loadData`: the stored profiles of slots 1..10, in slot order, and
      the stored request list. */
  function LoadData(store: Store): (p: Panel)
    ensures |p.profiles| <= LastSlot
  {
    Panel(LoadProfilesFrom(store, 1), StoredRequests(store))
  }

  /** The loaded profiles come in slot order: reading each id back as a
      number gives a slot at or after `i`, increasing along the list. */
  lemma {:induction false} LoadedInSlotOrderFrom(store: Store, i: nat)
    requires 1 <= i <= LastSlot + 1
    ensures var ps := LoadProfilesFrom(store, i);
            forall k :: 0 <= k < |ps| ==> i <= DecimalValue(ps[k].id) <= LastSlot
    ensures var ps := LoadProfilesFrom(store, i);
            forall k, l :: 0 <= k < l < |ps| ==> DecimalValue(ps[k].id) < DecimalValue(ps[l].id)
    decreases LastSlot + 1 - i
  {
    if i <= LastSlot {
      LoadedInSlotOrderFrom(store, i + 1);
      SlotIdIsDecimal();
      DecimalRoundTrip(i);
      LoadProfilesStep(store, i);
    }
  }

  /** What `loadData` shows: every loaded profile sits in one of the ten
      slots under its own id, no two share an id, every filled slot is
      shown, and the requests are the stored list. */
  lemma LoadDataSound(store: Store)
    ensures forall k :: 0 <= k < |LoadData(store).profiles| ==> IsSlotId(LoadData(store).profiles[k].id)
    ensures forall k, l :: 0 <= k < l < |LoadData(store).profiles| ==>
              LoadData(store).profiles[k].id != LoadData(store).profiles[l].id
    ensures forall k :: 0 <= k < |LoadData(store).profiles| ==>
              HasProfileAt(store, ProfileKey(LoadData(store).profiles[k].id))
    ensures forall j :: 1 <= j <= LastSlot && HasProfileAt(store, ProfileKey(SlotId(j))) ==>
              Lists(LoadData(store).profiles, SlotId(j))
    ensures LoadData(store).requests == StoredRequests(store)
  {
    assert LoadData(store).profiles == LoadProfilesFrom(store, 1);
    LoadedIdsAreSlots(store);
    LoadedIdsDistinct(store);
    LoadedAll(store);
  }

  // ------------------------------------------------------------ the counts

  /** The "Public Profiles" card. */
  function PublicProfiles(p: Panel): (n: nat)
    ensures n == Count(p.profiles, (q: LocalProfile) => q.isPublic)
    ensures n <= |p.profiles|
    ensures n == |p.profiles| <==> forall k :: 0 <= k < |p.profiles| ==> p.profiles[k].isPublic
    ensures n == 0 <==> forall k :: 0 <= k < |p.profiles| ==> !p.profiles[k].isPublic
  {
    var pub := Filter(p.profiles, (q: LocalProfile) => q.isPublic);
    if forall k :: 0 <= k < |p.profiles| ==> p.profiles[k].isPublic then
      FilterKeepsAll(p.profiles, (q: LocalProfile) => q.isPublic);
      assert |p.profiles| > 0 ==> p.profiles[0].isPublic;
      |pub|
    else
      PublicShortfall(p.profiles);
      assert |pub| > 0 ==> pub[0] in pub;
      assert forall k :: 0 <= k < |p.profiles| && p.profiles[k].isPublic ==> p.profiles[k] in pub;
      |pub|
  }

  lemma {:induction false} PublicShortfall(ps: seq<LocalProfile>)
    requires exists k :: 0 <= k < |ps| && !ps[k].isPublic
    ensures |Filter(ps, (q: LocalProfile) => q.isPublic)| < |ps|
    decreases |ps|
  {
    if ps[0].isPublic {
      assert exists k :: 0 <= k < |ps[1..]| && !ps[1..][k].isPublic by {
        var k :| 0 <= k < |ps| && !ps[k].isPublic;
        assert ps[1..][k - 1] == ps[k];
      }
      PublicShortfall(ps[1..]);
    }
  }

  // --------------------------------------------------------- the handlers

  /** The request names the user on either side. */
  predicate Mentions(userId: string, q: SwapRequest) {
    q.fromUserId == userId || q.toUserId == userId
  }

  /** `deleteUser`: remove `profile_<id>`, keep only the requests that do
      not name the user, write them back, and reload. The request list
      written is the one the panel holds, not a fresh read. */
  function DeleteUser(store: Store, p: Panel, userId: string): (r: (Store, Panel))
    ensures ProfileKey(userId) !in r.0
    ensures r.0.Keys == store.Keys - {ProfileKey(userId)} + {RequestsKey}
    ensures forall k :: k in store && k != ProfileKey(userId) && k != RequestsKey ==> r.0[k] == store[k]
    ensures forall q :: q in r.1.requests <==> q in p.requests && !Mentions(userId, q)
    ensures IsSubsequence(r.1.requests, p.requests)
    ensures |r.1.requests| == Count(p.requests, q => !Mentions(userId, q))
    ensures r.0[RequestsKey] == RequestsEntry(r.1.requests)
    ensures forall k :: 0 <= k < |r.1.profiles| ==> r.1.profiles[k].id != userId
    ensures r.1 == LoadData(r.0)
  {
    var kept := Filter(p.requests, q => !Mentions(userId, q));
    var removed := store - {ProfileKey(userId)};
    var store' := removed[RequestsKey := RequestsEntry(kept)];
    ProfileKeysAreDistinct(userId);
    assert forall k :: k in store && k != ProfileKey(userId) ==> k in removed && removed[k] == store[k];
    LoadDataSound(store');
    (store', LoadData(store'))
  }

  /** `deleteRequest`: the same removal by id as the requests page, written
      back to storage; the profiles are not reloaded. */
  function DeleteRequest(store: Store, p: Panel, id: string): (r: (Store, Panel))
    ensures forall q :: q in r.1.requests <==> q in p.requests && q.id != id
    ensures IsSubsequence(r.1.requests, p.requests)
    ensures |r.1.requests| == |p.requests| - Count(p.requests, q => Requests.HasId(id, q))
    ensures r.1.profiles == p.profiles
    ensures r.0.Keys == store.Keys + {RequestsKey}
    ensures forall k :: k in store && k != RequestsKey ==> r.0[k] == store[k]
    ensures r.0[RequestsKey] == RequestsEntry(r.1.requests)
  {
    var kept := Requests.Delete(p.requests, id);
    (store[RequestsKey := RequestsEntry(kept)], p.(requests := kept))
  }

  // -------------------------------------------------------------- the guard

  datatype AdminPage = Redirected | Shown(panel: Panel)

  /** A visitor who is not an administrator is sent to `/` and the panel
      renders nothing; an administrator sees the freshly loaded data. */
  function OpenAdmin(isAdmin: bool, store: Store): (page: AdminPage)
    ensures page.Redirected? <==> !isAdmin
    ensures page.Shown? ==> |page.panel.profiles| <= LastSlot
    ensures page.Shown? ==> page.panel.requests == StoredRequests(store)
    ensures page.Shown? ==> page.panel == LoadData(store)
    ensures page.Shown? ==> forall k :: 0 <= k < |page.panel.profiles| ==>
              IsSlotId(page.panel.profiles[k].id) && HasProfileAt(store, ProfileKey(page.panel.profiles[k].id))
    ensures page.Shown? ==> forall j :: 1 <= j <= LastSlot && HasProfileAt(store, ProfileKey(SlotId(j))) ==>
              Lists(page.panel.profiles, SlotId(j))
  {
    LoadDataSound(store);
    if !isAdmin then Redirected else Shown(LoadData(store))
  }
}

=== FILE: directory.dfy ===
/** The profile directory of the two Browse pages: the load query and its
    defaulting, the case-insensitive search over name, location and both
    skill lists, and (on the newer page) the availability filter. */
module Directory {
  import opened Optional
  import opened Seqs
  import opened Text
  import opened Tables

  /** A profile card as the Browse pages hold it. The random star rating
      is not part of the model. */
  datatype Card = Card(
    id: string,
    name: string,
    location: string,
    skillsOffered: seq<string>,
    skillsWanted: seq<string>,
    availability: seq<string>,
    isPublic: bool)

  // ------------------------------------------------------------- loading

  /** The load query's filter: `is_public = true` and `user_id` differs from
      `user?.id || ''`. */
  predicate Listed(row: ProfileRow, viewer: Option<string>) {
    row.isPublic == Some(true) && row.userId != viewer.GetOr("")
  }

  /** The card a row becomes: a missing location reads as `''` and missing
      lists as `[]`. */
  function ToCard(row: ProfileRow): (c: Card)
    ensures c.id == row.userId && c.name == row.name
    ensures row.location.None? ==> c.location == ""
    ensures row.location.Some? ==> c.location == row.location.value
    ensures row.skillsOffered.None? ==> c.skillsOffered == []
    ensures row.skillsOffered.Some? ==> c.skillsOffered == row.skillsOffered.value
    ensures row.skillsWanted.None? ==> c.skillsWanted == []
    ensures row.skillsWanted.Some? ==> c.skillsWanted == row.skillsWanted.value
    ensures row.availability.None? ==> c.availability == []
    ensures row.availability.Some? ==> c.availability == row.availability.value
    ensures c.isPublic <==> row.isPublic == Some(true)
  {
    Card(row.userId, row.name, row.location.GetOr(""), row.skillsOffered.GetOr([]),
         row.skillsWanted.GetOr([]), row.availability.GetOr([]), row.isPublic == Some(true))
  }

  /** `loadProfiles`: the listed rows, in table order, as cards. */
  function LoadCards(rows: seq<ProfileRow>, viewer: Option<string>): (cs: seq<Card>)
    ensures |cs| == Count(rows, (r: ProfileRow) => Listed(r, viewer))
    ensures forall k :: 0 <= k < |cs| ==> cs[k].isPublic && cs[k].id != viewer.GetOr("")
    decreases |rows|
  {
    if |rows| == 0 then []
    else
      var rest := LoadCards(rows[1..], viewer);
      if Listed(rows[0], viewer) then [ToCard(rows[0])] + rest else rest
  }

  /** Some listed row at index `j` of `rows` becomes the card `c`. */
  predicate FromListedRow(rows: seq<ProfileRow>, viewer: Option<string>, c: Card) {
    exists j | 0 <= j < |rows| :: Listed(rows[j], viewer) && c == ToCard(rows[j])
  }

  /** The loaded cards are exactly the listed rows as cards: every card
      comes from a listed row, and every listed row gives a card. */
  lemma {:induction false} LoadCardsFromRows(rows: seq<ProfileRow>, viewer: Option<string>)
    ensures forall k :: 0 <= k < |LoadCards(rows, viewer)| ==> FromListedRow(rows, viewer, LoadCards(rows, viewer)[k])
    ensures forall j :: 0 <= j < |rows| && Listed(rows[j], viewer) ==> ToCard(rows[j]) in LoadCards(rows, viewer)
    decreases |rows|
  {
    if |rows| != 0 {
      LoadCardsFromRows(rows[1..], viewer);
      var cs := LoadCards(rows, viewer);
      var rest := LoadCards(rows[1..], viewer);
      assert forall j :: 1 <= j < |rows| ==> rows[j] == rows[1..][j - 1];
      forall k | 0 <= k < |cs|
        ensures FromListedRow(rows, viewer, cs[k])
      {
        if Listed(rows[0], viewer) && k == 0 {
          assert Listed(rows[0], viewer) && cs[k] == ToCard(rows[0]);
        } else {
          var k' := if Listed(rows[0], viewer) then k - 1 else k;
          assert cs[k] == rest[k'];
          var j :| 0 <= j < |rows[1..]| && Listed(rows[1..][j], viewer) && rest[k'] == ToCard(rows[1..][j]);
          assert rows[1..][j] == rows[j + 1];
        }
      }
    }
  }

  /** The cards come in row order: the `k`-th card is the `k`-th listed
      row as a card, so the directory is never re-sorted. */
  lemma {:induction false} LoadCardsInRowOrder(rows: seq<ProfileRow>, viewer: Option<string>)
    ensures var listed := Filter(rows, (r: ProfileRow) => Listed(r, viewer));
            |LoadCards(rows, viewer)| == |listed| &&
            forall k :: 0 <= k < |listed| ==> LoadCards(rows, viewer)[k] == ToCard(listed[k])
    decreases |rows|
  {
    if |rows| > 0 {
      LoadCardsInRowOrder(rows[1..], viewer);
    }
  }

  /** A signed-in viewer never sees their own card. */
  lemma OwnCardNeverLoaded(rows: seq<ProfileRow>, id: string)
    ensures forall c :: c in LoadCards(rows, Some(id)) ==> c.id != id
  {
  }

  // ------------------------------------------------------------- searching

  /** Some entry of `items`, lower-cased, contains `t`. */
  predicate AnyIncludes(items: seq<string>, t: string) {
    exists k | 0 <= k < |items| :: Includes(Lower(items[k]), t)
  }

  /** The four-field test against an already lower-cased term `t`. */
  predicate MatchesTerm(c: Card, t: string) {
    || Includes(Lower(c.name), t)
    || AnyIncludes(c.skillsOffered, t)
    || AnyIncludes(c.skillsWanted, t)
    || Includes(Lower(c.location), t)
  }

  /** The search predicate of both pages: an empty term keeps every card. */
  predicate MatchesSearch(c: Card, term: string) {
    term == "" || MatchesTerm(c, Lower(term))
  }

  /** The availability filter: `"all"` keeps every card, any other choice
      keeps a card with some availability entry containing it. */
  predicate MatchesAvailability(c: Card, filter: string) {
    filter == "all" || AnyIncludes(c.availability, Lower(filter))
  }

  /** `filteredProfiles` of the newer page: search and availability. */
  function FilteredCards(cs: seq<Card>, term: string, filter: string): (r: seq<Card>)
    ensures forall c :: c in r <==> c in cs && MatchesSearch(c, term) && MatchesAvailability(c, filter)
    ensures IsSubsequence(r, cs)
    ensures |r| == Count(cs, (c: Card) => MatchesSearch(c, term) && MatchesAvailability(c, filter))
  {
    Filter(cs, (c: Card) => MatchesSearch(c, term) && MatchesAvailability(c, filter))
  }

  /** `filteredProfiles` of the older page: search only. */
  function SearchResults(cs: seq<Card>, term: string): (r: seq<Card>)
    ensures forall c :: c in r <==> c in cs && MatchesSearch(c, term)
    ensures IsSubsequence(r, cs)
    ensures |r| == Count(cs, (c: Card) => MatchesSearch(c, term))
  {
    Filter(cs, (c: Card) => MatchesSearch(c, term))
  }

  /** With no search term and availability `"all"` every loaded card is
      shown, in order. */
  lemma NoFilterShowsAll(cs: seq<Card>)
    ensures FilteredCards(cs, "", "all") == cs
    ensures SearchResults(cs, "") == cs
  {
    FilterKeepsAll(cs, (c: Card) => MatchesSearch(c, "") && MatchesAvailability(c, "all"));
    FilterKeepsAll(cs, (c: Card) => MatchesSearch(c, ""));
  }

  /** The newer page's filter is the older page's search followed by the
      availability filter; with `"all"` the two pages agree. */
  lemma FilteredIsSearchThenAvailability(cs: seq<Card>, term: string, filter: string)
    ensures FilteredCards(cs, term, filter)
            == Filter(SearchResults(cs, term), (c: Card) => MatchesAvailability(c, filter))
    ensures filter == "all" ==> FilteredCards(cs, term, filter) == SearchResults(cs, term)
  {
    FilterConjunction(cs, (c: Card) => MatchesSearch(c, term), (c: Card) => MatchesAvailability(c, filter),
                      (c: Card) => MatchesSearch(c, term) && MatchesAvailability(c, filter));
    if filter == "all" {
      FilterKeepsAll(SearchResults(cs, term), (c: Card) => MatchesAvailability(c, filter));
    }
  }

  /** Terms that differ only in letter case select the same cards. */
  lemma SearchIgnoresCase(cs: seq<Card>, t1: string, t2: string, filter: string)
    requires Lower(t1) == Lower(t2)
    ensures SearchResults(cs, t1) == SearchResults(cs, t2)
    ensures FilteredCards(cs, t1, filter) == FilteredCards(cs, t2, filter)
  {
    LowerIdempotent(t1);
    LowerIdempotent(t2);
    assert t1 == "" <==> t2 == "";
    FilterExtensional(cs, (c: Card) => MatchesSearch(c, t1), (c: Card) => MatchesSearch(c, t2));
    FilterExtensional(cs, (c: Card) => MatchesSearch(c, t1) && MatchesAvailability(c, filter),
                          (c: Card) => MatchesSearch(c, t2) && MatchesAvailability(c, filter));
  }

  /** A card is found by its own name typed in any letter case. */
  lemma FoundByOwnName(c: Card, term: string)
    requires Lower(term) == Lower(c.name)
    ensures MatchesSearch(c, term)
  {
    IncludesSelf(Lower(c.name));
  }

  lemma AnyIncludesPrefix(items: seq<string>, a: string, b: string)
    requires AnyIncludes(items, a + b)
    ensures AnyIncludes(items, a)
  {
    var k :| 0 <= k < |items| && Includes(Lower(items[k]), a + b);
    IncludesPrefix(Lower(items[k]), a, b);
  }

  /** Typing more characters never brings a card back: every card that
      matches `t + u` matches `t`. */
  lemma LongerTermNarrows(cs: seq<Card>, t: string, u: string)
    ensures forall c :: c in SearchResults(cs, t + u) ==> c in SearchResults(cs, t)
  {
    LowerConcat(t, u);
    forall c | c in SearchResults(cs, t + u)
      ensures MatchesSearch(c, t)
    {
      if t != "" {
        var a, b := Lower(t), Lower(u);
        assert MatchesTerm(c, a + b);
        if Includes(Lower(c.name), a + b) {
          IncludesPrefix(Lower(c.name), a, b);
        } else if AnyIncludes(c.skillsOffered, a + b) {
          AnyIncludesPrefix(c.skillsOffered, a, b);
        } else if AnyIncludes(c.skillsWanted, a + b) {
          AnyIncludesPrefix(c.skillsWanted, a, b);
        } else {
          IncludesPrefix(Lower(c.location), a, b);
        }
      }
    }
  }
}

=== FILE: mount.dfy ===
/** A full page load of a page wrapped in the session provider. The
    provider starts with no user and restores the saved one only in an
    effect, after the first render has been committed. The effects of that
    first render therefore close over a signed-out session: the admin
    guard of the panel and the one-off profile load of the older Browse
    page both see nobody signed in. The corrected readings wait for the
    restored session. */
module Mount {
  import opened Optional
  import opened Records
  import opened Tables
  import Session
  import AdminPanel
  import Directory

  /** The session the first render sees: `useState<User | null>(null)`,
      whatever the storage holds. */
  function FirstRender(store: Store): (st: Session.State)
    ensures !Session.IsAuthenticated(st) && !Session.IsAdmin(st)
    ensures st.store == store
  {
    Session.State(None, store)
  }

  /** `user?.id` of a session. */
  function ViewerId(st: Session.State): (v: Option<string>)
    ensures v.Some? <==> Session.IsAuthenticated(st)
    ensures v.Some? ==> v.value == st.user.value.id
  {
    if st.user.Some? then Some(st.user.value.id) else None
  }

  // ---------------------------------------------------------------- admin

  /** As written: the panel's guard effect reads `isAdmin` of the first
      render. */
  function OpenAdminOnLoad(store: Store): (page: AdminPanel.AdminPage)
    ensures page.Redirected?
  {
    AdminPanel.OpenAdmin(Session.IsAdmin(FirstRender(store)), store)
  }

  /** Corrected: the guard reads the restored session, so a saved
      administrator sees the panel and anybody else is redirected. */
  function OpenAdminAfterRestore(store: Store): (page: AdminPanel.AdminPage)
    ensures page.Shown? <==> Session.Saved(store).Some? && Session.Saved(store).value.role == Admin
    ensures page.Shown? ==> page.panel == AdminPanel.LoadData(store)
  {
    AdminPanel.OpenAdmin(Session.IsAdmin(Session.Restore(store)), store)
  }

  /** An administrator whose session is saved is redirected away from the
      panel on a reload, although the restored session is an
      administrator's and the corrected guard shows the panel. */
  lemma AdminRedirectedOnReload(store: Store)
    requires Session.Saved(store).Some? && Session.Saved(store).value.role == Admin
    ensures Session.IsAdmin(Session.Restore(store))
    ensures OpenAdminOnLoad(store).Redirected?
    ensures OpenAdminAfterRestore(store).Shown?
  {
  }

  // --------------------------------------------------------------- browse

  /** As written: the one-off profile load of the older Browse page, and
      every realtime reload (which calls the same closure), filter by the
      first render's `user?.id || ''`, that is by `''`. */
  function BrowseOnLoad(rows: seq<ProfileRow>, store: Store): (cs: seq<Directory.Card>)
    ensures cs == Directory.LoadCards(rows, None)
  {
    Directory.LoadCards(rows, ViewerId(FirstRender(store)))
  }

  /** Corrected: the load filters by the restored user's id, so the
      signed-in user's own card is never listed. */
  function BrowseAfterRestore(rows: seq<ProfileRow>, store: Store): (cs: seq<Directory.Card>)
    ensures Session.Saved(store).Some? ==> forall c :: c in cs ==> c.id != Session.Saved(store).value.id
    ensures Session.Saved(store).Some? ==>
              forall j :: 0 <= j < |rows| && rows[j].isPublic == Some(true) && rows[j].userId != Session.Saved(store).value.id ==>
                Directory.ToCard(rows[j]) in cs
    ensures cs == Directory.LoadCards(rows, ViewerId(Session.Restore(store)))
  {
    Directory.OwnCardNeverLoaded(rows, Session.Saved(store).GetOr(User("", "", "", Member)).id);
    Directory.LoadCardsFromRows(rows, ViewerId(Session.Restore(store)));
    Directory.LoadCards(rows, ViewerId(Session.Restore(store)))
  }

  /** A signed-in user with a public profile row sees their own card after
      a reload, which the corrected load never shows. */
  lemma OwnCardListedOnReload(rows: seq<ProfileRow>, store: Store, j: nat)
    requires Session.Saved(store).Some? && Session.Saved(store).value.id != ""
    requires j < |rows| && rows[j].userId == Session.Saved(store).value.id
    requires rows[j].isPublic == Some(true)
    ensures Directory.ToCard(rows[j]) in BrowseOnLoad(rows, store)
    ensures Directory.ToCard(rows[j]) !in BrowseAfterRestore(rows, store)
  {
    Directory.LoadCardsFromRows(rows, None);
  }
}

=== FILE: notify.dfy ===
/** The notification edge function: it answers the CORS preflight, and for
    any other call picks an e-mail template by the payload's `type` and
    returns it as a preview (the mail itself is only logged). The HTML
    markup is abstracted into the parts that vary: heading, whom the mail
    greets, whom it names, the quoted message and the link. */
module Notify {
  import opened Optional

  datatype RequestData = RequestData(fromUserName: string, toUserName: string, message: string)

  /** The JSON body the function reads. The `html` field it destructures is
      never used, so it is not modelled. */
  datatype Payload = Payload(to: string, subject: string, kind: string, requestData: Option<RequestData>)

  const RequestSent: string := "request_sent"
  const RequestAccepted: string := "request_accepted"
  const RequestRejected: string := "request_rejected"

  const DefaultSiteUrl: string := "http://localhost:8080"

  /** `Deno.env.get('SITE_URL') || 'http://localhost:8080'`. */
  function SiteUrl(env: Option<string>): (url: string)
    ensures env.Some? && env.value != "" ==> url == env.value
    ensures env.None? || env.value == "" ==> url == DefaultSiteUrl
  {
    if env.Some? && env.value != "" then env.value else DefaultSiteUrl
  }

  /** How `${requestData?.field}` prints: a missing `requestData` prints
      as `undefined`. */
  function FromName(d: Option<RequestData>): string {
    if d.Some? then d.value.fromUserName else "undefined"
  }

  function ToName(d: Option<RequestData>): string {
    if d.Some? then d.value.toUserName else "undefined"
  }

  function MessageText(d: Option<RequestData>): string {
    if d.Some? then d.value.message else "undefined"
  }

  datatype Content =
    | NoContent
    | Mail(heading: string, greets: string, names: string, quote: Option<string>, link: string)

  const SentHeading: string := "New Skill Swap Request"
  const AcceptedHeading: string := "\U{1F389} Your Skill Swap Request was Accepted!"
  const RejectedHeading: string := "Skill Swap Request Update"

  /** The `switch (type)`: a new request goes to its recipient and quotes
      the message; an answer goes back to the sender and names the
      recipient; any other type leaves the content empty. */
  function Template(kind: string, d: Option<RequestData>, siteUrl: string): (c: Content)
    ensures c.NoContent? <==> kind !in {RequestSent, RequestAccepted, RequestRejected}
    ensures kind == RequestSent ==>
              c.greets == ToName(d) && c.names == FromName(d)
              && c.quote == Some(MessageText(d)) && c.link == siteUrl + "/requests"
    ensures kind == RequestAccepted ==>
              c.greets == FromName(d) && c.names == ToName(d)
              && c.quote.None? && c.link == siteUrl + "/requests"
    ensures kind == RequestRejected ==>
              c.greets == FromName(d) && c.names == ToName(d)
              && c.quote.None? && c.link == siteUrl + "/browse"
  {
    if kind == RequestSent then
      Mail(SentHeading, ToName(d), FromName(d), Some(MessageText(d)), siteUrl + "/requests")
    else if kind == RequestAccepted then
      Mail(AcceptedHeading, FromName(d), ToName(d), None, siteUrl + "/requests")
    else if kind == RequestRejected then
      Mail(RejectedHeading, FromName(d), ToName(d), None, siteUrl + "/browse")
    else NoContent
  }

  datatype Body = PreflightOk | Sent(preview: Content) | Failed(message: string)

  datatype Response = Response(status: nat, body: Body)

  /** One call of the function. `parsed` is the outcome of `req.json()`
      (an `Err` carries the thrown error's message); `siteEnv` is the
      `SITE_URL` variable. */
  function Handle(httpMethod: string, parsed: Result<Payload, string>, siteEnv: Option<string>): (r: Response)
    ensures httpMethod == "OPTIONS" ==> r == Response(200, PreflightOk)
    ensures httpMethod != "OPTIONS" && parsed.Ok? ==>
              r.status == 200 && r.body.Sent?
              && r.body.preview == Template(parsed.value.kind, parsed.value.requestData, SiteUrl(siteEnv))
    ensures httpMethod != "OPTIONS" && parsed.Err? ==> r == Response(400, Failed(parsed.error))
    ensures r.status == 200 || r.status == 400
  {
    if httpMethod == "OPTIONS" then Response(200, PreflightOk)
    else match parsed
      case Ok(p) => Response(200, Sent(Template(p.kind, p.requestData, SiteUrl(siteEnv))))
      case Err(msg) => Response(400, Failed(msg))
  }

  /** The preflight answer never depends on the body. */
  lemma PreflightIgnoresBody(a: Result<Payload, string>, b: Result<Payload, string>, env: Option<string>)
    ensures Handle("OPTIONS", a, env) == Handle("OPTIONS", b, env)
  {
  }

  /** The mail announcing a request and the mail answering it address
      opposite ends: the first greets the recipient, the answers greet the
      sender, and each names the other party. */
  lemma AnswerAddressesSender(d: RequestData, url: string, answer: string)
    requires answer == RequestAccepted || answer == RequestRejected
    ensures Template(RequestSent, Some(d), url).greets == Template(answer, Some(d), url).names
    ensures Template(RequestSent, Some(d), url).names == Template(answer, Some(d), url).greets
  {
  }
}

=== FILE: optional.dfy ===
/** Optional and fallible values: a JavaScript `null`/`undefined` field and
    a thrown exception, made explicit. */
module Optional {

  datatype Option<+T> = None | Some(value: T) {

    /** `x ?? d` on a nullable field. */
    function GetOr(default: T): T {
      match this
      case Some(v) => v
      case None => default
    }
  }

  datatype Result<+T, +E> = Ok(value: T) | Err(error: E)
}

=== FILE: outgoing.dfy ===
/** Sending a swap request from a Browse card: the record inserted into
    `swap_requests` and, on the newer page, the `request_sent` notification
    that follows a successful insert. The database insert and the recipient
    address lookup are parameters: `insertOk` is whether the insert came
    back without an error and `recipientEmail` is what the lookup found. */
module Outgoing {
  import opened Optional
  import opened Records
  import opened Tables
  import Notify

  datatype SendOutcome =
    | NotSignedIn
    | InsertFailed(row: RequestRow)
    | Inserted(row: RequestRow, notice: Option<Notify.Payload>)

  /** `!user?.id`: nobody is signed in, or the id is empty. */
  predicate CanSend(user: Option<User>) {
    user.Some? && user.value.id != ""
  }

  /** `user.name || 'User'`. */
  function SenderName(user: User): (n: string)
    ensures n != ""
    ensures user.name != "" ==> n == user.name
    ensures user.name == "" ==> n == "User"
  {
    if user.name != "" then user.name else "User"
  }

  const SubjectPrefix: string := "New Skill Swap Request from "

  /** The request record both pages insert; only the sender's name differs
      between them. */
  function RequestRecord(user: User, fromName: string, targetId: string, targetName: string): RequestRow {
    RequestRow(user.id, fromName, targetId, targetName, Greeting(targetName), PendingStatus)
  }

  /** `sendSwapRequest` of the newer page. */
  function SendRequest(user: Option<User>, targetId: string, targetName: string,
                       recipientEmail: Option<string>, insertOk: bool): (o: SendOutcome)
    ensures o.NotSignedIn? <==> !CanSend(user)
    ensures !o.NotSignedIn? ==>
              && o.row.status == PendingStatus
              && o.row.fromUserId == user.value.id
              && o.row.toUserId == targetId && o.row.toUserName == targetName
              && o.row.message == Greeting(targetName)
              && o.row.fromUserName == SenderName(user.value)
    ensures o.Inserted? <==> CanSend(user) && insertOk
    ensures o.Inserted? ==> (o.notice.Some? <==> recipientEmail.Some? && recipientEmail.value != "")
    ensures o.Inserted? && o.notice.Some? ==>
              && o.notice.value.to == recipientEmail.value
              && o.notice.value.kind == Notify.RequestSent
              && o.notice.value.subject == SubjectPrefix + user.value.name
              && o.notice.value.requestData
                 == Some(Notify.RequestData(o.row.fromUserName, targetName, o.row.message))
  {
    if !CanSend(user) then NotSignedIn
    else
      var u := user.value;
      var row := RequestRecord(u, SenderName(u), targetId, targetName);
      if !insertOk then InsertFailed(row)
      else if recipientEmail.Some? && recipientEmail.value != "" then
        var data := Notify.RequestData(SenderName(u), targetName, row.message);
        Inserted(row, Some(Notify.Payload(recipientEmail.value, SubjectPrefix + u.name, Notify.RequestSent, Some(data))))
      else Inserted(row, None)
  }

  /** `sendSwapRequest` of the older page: the user's name is copied as it
      is, and no notification follows. */
  function SendRequestPlain(user: Option<User>, targetId: string, targetName: string, insertOk: bool): (o: SendOutcome)
    ensures o.NotSignedIn? <==> !CanSend(user)
    ensures !o.NotSignedIn? ==>
              && o.row.status == PendingStatus
              && o.row.fromUserId == user.value.id && o.row.fromUserName == user.value.name
              && o.row.toUserId == targetId && o.row.toUserName == targetName
              && o.row.message == Greeting(targetName)
    ensures o.Inserted? <==> CanSend(user) && insertOk
    ensures o.Inserted? ==> o.notice.None?
  {
    if !CanSend(user) then NotSignedIn
    else
      var row := RequestRecord(user.value, user.value.name, targetId, targetName);
      if insertOk then Inserted(row, None) else InsertFailed(row)
  }

  /** For a user with a name the two pages insert the same record; for a
      user whose name is empty the older page stores an empty sender name
      where the newer one stores `"User"`. */
  lemma PagesAgreeOnNamedSender(user: Option<User>, targetId: string, targetName: string,
                                recipientEmail: Option<string>, insertOk: bool)
    requires CanSend(user)
    ensures var a := SendRequest(user, targetId, targetName, recipientEmail, insertOk);
            var b := SendRequestPlain(user, targetId, targetName, insertOk);
            (a.row == b.row <==> user.value.name != "")
  {
  }

  /** The notification that follows a request, once the mail function
      handles it, greets the target by the name on the card, names the
      sender, quotes the greeting, and links to the requests page. */
  lemma NoticeGreetsTarget(user: Option<User>, targetId: string, targetName: string,
                           recipientEmail: Option<string>, siteEnv: Option<string>, httpMethod: string)
    requires CanSend(user) && recipientEmail.Some? && recipientEmail.value != ""
    requires httpMethod != "OPTIONS"
    ensures var o := SendRequest(user, targetId, targetName, recipientEmail, true);
            var r := Notify.Handle(httpMethod, Ok(o.notice.value), siteEnv);
            && r.status == 200
            && r.body.preview.greets == targetName
            && r.body.preview.names == SenderName(user.value)
            && r.body.preview.quote == Some(Greeting(targetName))
            && r.body.preview.link == Notify.SiteUrl(siteEnv) + "/requests"
  {
  }
}

=== FILE: paging.dfy ===
/** Pagination of the older Browse page: six cards a page, a page number
    that starts at 1, previous / next / numbered buttons, and a pager that
    is only drawn when there is more than one page. */
module Paging {
  import Directory

  /** `itemsPerPage`. */
  const PageSize: nat := 6

  /** `Math.ceil(n / itemsPerPage)`. */
  function TotalPages(n: nat): (t: nat)
    ensures t * PageSize >= n
    ensures t == 0 || (t - 1) * PageSize < n
    ensures t == 0 <==> n == 0
  {
    (n + PageSize - 1) / PageSize
  }

  function Min(a: int, b: int): int {
    if a <= b then a else b
  }

  function Max(a: int, b: int): int {
    if a >= b then a else b
  }

  /** `s.slice(start, end)` for non-negative bounds: both bounds are cut
      back to the length, and a range that ends before it starts is
      empty. */
  function Slice<T>(s: seq<T>, start: nat, end: nat): (r: seq<T>)
    ensures start <= end <= |s| ==> r == s[start..end]
    ensures start <= |s| <= end ==> r == s[start..]
    ensures start >= |s| ==> r == []
    ensures |r| <= Max(0, end - start)
  {
    var from := Min(start, |s|);
    var to := Min(end, |s|);
    if to <= from then [] else s[from..to]
  }

  /** The cards shown on page `p` (`startIndex = (p - 1) * itemsPerPage`). */
  function PageOf<T>(s: seq<T>, p: nat): (r: seq<T>)
    requires p >= 1
    ensures |r| <= PageSize
    ensures p <= TotalPages(|s|) ==> 0 < |r| && r == s[(p - 1) * PageSize..Min(p * PageSize, |s|)]
    ensures p > TotalPages(|s|) ==> r == []
  {
    Slice(s, (p - 1) * PageSize, (p - 1) * PageSize + PageSize)
  }

  /** Pages `p..TotalPages`, one after the other. */
  function PagesFrom<T>(s: seq<T>, p: nat): seq<T>
    requires p >= 1
    decreases TotalPages(|s|) + 1 - p
  {
    if p > TotalPages(|s|) then [] else PageOf(s, p) + PagesFrom(s, p + 1)
  }

  /** The pages from `p` on hold exactly the cards from `(p - 1) * 6` on. */
  lemma {:induction false} PagesFromSuffix<T>(s: seq<T>, p: nat)
    requires p >= 1
    ensures PagesFrom(s, p) == s[Min((p - 1) * PageSize, |s|)..]
    decreases TotalPages(|s|) + 1 - p
  {
    if p <= TotalPages(|s|) {
      PagesFromSuffix(s, p + 1);
      var lo, hi := (p - 1) * PageSize, Min(p * PageSize, |s|);
      assert s[lo..] == s[lo..hi] + s[hi..];
    }
  }

  /** Reading every page in order gives back the whole list: no card is
      lost, repeated or moved. */
  lemma PagesCoverAll<T>(s: seq<T>)
    ensures PagesFrom(s, 1) == s
  {
    PagesFromSuffix(s, 1);
  }

  // ---------------------------------------------------------------- pager

  /** `totalPages > 1`. */
  predicate PagerShown(total: nat) {
    total > 1
  }

  datatype Click = Previous | Numbered(index: nat) | Next

  /** The page after a click on the pager: previous stops at 1, next stops
      at the last page, the `i`-th numbered button goes to page `i + 1`. */
  function AfterClick(p: nat, total: nat, c: Click): (q: nat)
    requires PagerShown(total)
    requires c.Numbered? ==> c.index < total
    ensures 1 <= q
    ensures q <= Max(p, total)
    ensures 1 <= p <= total ==> q <= total
    ensures c == Previous ==> (p > 1 ==> q == p - 1) && (p <= 1 ==> q == 1)
    ensures c == Next ==> (p < total ==> q == p + 1) && (p >= total ==> q == total)
    ensures c.Numbered? ==> q == c.index + 1
  {
    match c
    case Previous => Max(1, p - 1)
    case Numbered(i) => i + 1
    case Next => Min(total, p + 1)
  }

  /** Clicks keep an in-range page in range, so a page reached by clicks
      alone always shows cards. */
  lemma ClicksKeepCardsOnScreen<T>(s: seq<T>, p: nat, c: Click)
    requires PagerShown(TotalPages(|s|)) && 1 <= p <= TotalPages(|s|)
    requires c.Numbered? ==> c.index < TotalPages(|s|)
    ensures 0 < |PageOf(s, AfterClick(p, TotalPages(|s|), c))|
  {
  }

  // --------------------------------------------------------------- screen

  /** What the card area shows: the page's cards, whether the pager is
      drawn, and whether the "no profiles" message is drawn. */
  datatype Screen<T> = Screen(cards: seq<T>, pager: bool, emptyMessage: bool)

  /** The card area as written: the page number is kept as it is, even when
      the filtered list has since become shorter. */
  function View<T>(filtered: seq<T>, p: nat): (v: Screen<T>)
    requires p >= 1
    ensures v.pager <==> TotalPages(|filtered|) > 1
    ensures v.emptyMessage <==> |filtered| == 0
    ensures p <= TotalPages(|filtered|) ==> 0 < |v.cards|
    ensures v.cards == Slice(filtered, (p - 1) * PageSize, p * PageSize)
  {
    Screen(PageOf(filtered, p), PagerShown(TotalPages(|filtered|)), |filtered| == 0)
  }

  /** With 13 cards the third page is reachable; a search that then leaves
      one match keeps page 3, whose slice is empty, while the pager (one
      page) and the "no profiles" message (one match) both stay hidden. */
  lemma StalePageHidesMatch(all: seq<int>, narrowed: seq<int>)
    requires |all| == 13 && |narrowed| == 1
    ensures 3 <= TotalPages(|all|)
    ensures View(narrowed, 3) == Screen([], false, false)
  {
  }

  /** The page number once it is kept within `1..total`. */
  function ClampPage(p: nat, total: nat): (q: nat)
    requires p >= 1
    ensures 1 <= q
    ensures total >= 1 ==> q <= total
    ensures p <= total ==> q == p
  {
    if p <= total then p else Max(1, total)
  }

  /** The card area with the page number clamped to the pages that exist:
      whenever something matches, some card is on screen. */
  function ClampedView<T>(filtered: seq<T>, p: nat): (v: Screen<T>)
    requires p >= 1
    ensures v.pager <==> TotalPages(|filtered|) > 1
    ensures v.emptyMessage <==> |filtered| == 0
    ensures 0 < |filtered| ==> 0 < |v.cards|
    ensures p <= TotalPages(|filtered|) ==> v == View(filtered, p)
  {
    View(filtered, ClampPage(p, TotalPages(|filtered|)))
  }

  /** The older Browse page's card area for the search `term` on page `p`,
      with the page clamped: only matching cards are shown, and some are
      whenever any card matches. */
  function SearchScreen(cs: seq<Directory.Card>, term: string, p: nat): (v: Screen<Directory.Card>)
    requires p >= 1
    ensures forall c :: c in v.cards ==> c in cs && Directory.MatchesSearch(c, term)
    ensures (exists k | 0 <= k < |cs| :: Directory.MatchesSearch(cs[k], term)) ==> 0 < |v.cards|
    ensures v.emptyMessage <==> forall k :: 0 <= k < |cs| ==> !Directory.MatchesSearch(cs[k], term)
  {
    var filtered := Directory.SearchResults(cs, term);
    assert forall k :: 0 <= k < |cs| && Directory.MatchesSearch(cs[k], term) ==> cs[k] in filtered;
    assert |filtered| > 0 ==> filtered[0] in filtered;
    ClampedView(filtered, p)
  }
}

=== FILE: profile_editor.dfy ===
/** The profile editor of the newer front end: the form, its skill and
    availability controls, the picture upload check, and the mapping from
    the stored `profiles` row to the form and back. The hosted database and
    file storage are parameters: a flag says whether a write succeeded and
    the public address of an uploaded file is passed in. */
module ProfileEditor {
  import opened Optional
  import opened Seqs
  import opened Text
  import opened Records
  import opened Tables
  import Directory

  /** The form (`UserProfile` in the page); an absent picture is `''`. */
  datatype Form = Form(
    name: string,
    location: string,
    skillsOffered: seq<string>,
    skillsWanted: seq<string>,
    availability: seq<string>,
    isPublic: bool,
    profilePicture: string)

  /** The page state: the form, the two "new skill" inputs, and whether a
      stored row was found (`hasExistingProfile`). */
  datatype Editor = Editor(form: Form, newSkillOffered: string, newSkillWanted: string, hasExisting: bool)

  /** The state on mount: the signed-in user's name, public, nothing else. */
  function Initial(user: Option<User>): (e: Editor)
    ensures e.form.isPublic && !e.hasExisting
    ensures e.form.skillsOffered == [] && e.form.skillsWanted == [] && e.form.availability == []
    ensures e.form.name == (if user.Some? then user.value.name else "")
    ensures e.form.location == "" && e.form.profilePicture == ""
    ensures e.newSkillOffered == "" && e.newSkillWanted == ""
  {
    var name := if user.Some? then user.value.name else "";
    Editor(Form(name, "", [], [], [], true, ""), "", "", false)
  }

  // ---------------------------------------------------------------- skills

  /** Adding the text of a "new skill" input to a list: the trimmed text
      goes at the end and the input is cleared; blank text changes
      nothing. The result is the new list and the new input. */
  function AddSkill(skills: seq<string>, input: string): (r: (seq<string>, string))
    ensures Trim(input) != "" ==> r.0 == skills + [Trim(input)] && r.1 == ""
    ensures Trim(input) == "" ==> r == (skills, input)
  {
    var t := Trim(input);
    if t != "" then (skills + [t], "") else (skills, input)
  }

  /** `removeSkill…(skill)`: every copy of `skill` goes, the rest stay in
      order. */
  function RemoveSkill(skills: seq<string>, skill: string): (r: seq<string>)
    ensures skill !in r
    ensures forall x :: x in r <==> x in skills && x != skill
    ensures IsSubsequence(r, skills)
    ensures |r| == Count(skills, (x: string) => x != skill)
    ensures skill !in skills ==> r == skills
  {
    var r := Filter(skills, (x: string) => x != skill);
    if skill !in skills then
      FilterKeepsAll(skills, (x: string) => x != skill);
      r
    else r
  }

  /** Adding a skill and then removing it leaves the other skills as
      removing it alone would. */
  lemma AddThenRemove(skills: seq<string>, input: string)
    requires Trim(input) != ""
    ensures RemoveSkill(AddSkill(skills, input).0, Trim(input)) == RemoveSkill(skills, Trim(input))
  {
    var t := Trim(input);
    FilterConcat(skills, [t], (x: string) => x != t);
  }

  /** `addSkillOffered`: only the offered list and its input change. */
  function AddSkillOffered(e: Editor): (r: Editor)
    ensures r.form.(skillsOffered := e.form.skillsOffered) == e.form
    ensures r.newSkillWanted == e.newSkillWanted && r.hasExisting == e.hasExisting
    ensures (r.form.skillsOffered, r.newSkillOffered) == AddSkill(e.form.skillsOffered, e.newSkillOffered)
  {
    var (skills, input) := AddSkill(e.form.skillsOffered, e.newSkillOffered);
    e.(form := e.form.(skillsOffered := skills), newSkillOffered := input)
  }

  /** `addSkillWanted`: only the wanted list and its input change. */
  function AddSkillWanted(e: Editor): (r: Editor)
    ensures r.form.(skillsWanted := e.form.skillsWanted) == e.form
    ensures r.newSkillOffered == e.newSkillOffered && r.hasExisting == e.hasExisting
    ensures (r.form.skillsWanted, r.newSkillWanted) == AddSkill(e.form.skillsWanted, e.newSkillWanted)
  {
    var (skills, input) := AddSkill(e.form.skillsWanted, e.newSkillWanted);
    e.(form := e.form.(skillsWanted := skills), newSkillWanted := input)
  }

  /** Every skill the inputs can add is non-empty and trimmed. */
  lemma AddedSkillIsTrimmed(skills: seq<string>, input: string)
    requires |AddSkill(skills, input).0| > |skills|
    ensures var s := AddSkill(skills, input).0[|skills|];
            s != "" && !IsJsSpace(s[0]) && !IsJsSpace(s[|s| - 1]) && Trim(s) == s
  {
    TrimIdempotent(input);
  }

  // ---------------------------------------------------------- availability

  /** `toggleAvailability(option)`: a present option is removed (every
      copy), an absent one is appended. */
  function Toggle(avail: seq<string>, option: string): (r: seq<string>)
    ensures option in r <==> option !in avail
    ensures forall x :: x != option ==> (x in r <==> x in avail)
    ensures option !in avail ==> r == avail + [option]
    ensures option in avail ==> IsSubsequence(r, avail) && |r| == Count(avail, (x: string) => x != option)
  {
    if option in avail then RemoveSkill(avail, option) else avail + [option]
  }

  /** Toggling an absent option twice restores the list. */
  lemma ToggleTwiceAbsent(avail: seq<string>, option: string)
    requires option !in avail
    ensures Toggle(Toggle(avail, option), option) == avail
  {
    FilterConcat(avail, [option], (x: string) => x != option);
    FilterKeepsAll(avail, (x: string) => x != option);
  }

  /** Toggling a present option twice moves it, as a single copy, to the
      end of the list. */
  lemma ToggleTwicePresent(avail: seq<string>, option: string)
    requires option in avail
    ensures Toggle(Toggle(avail, option), option) == RemoveSkill(avail, option) + [option]
  {
  }

  // ----------------------------------------------------------------- image

  /** The upload size cap, 5 MiB, inclusive. */
  const MaxImageBytes: nat := 5 * 1024 * 1024

  datatype ImageCheck = InvalidType | TooLarge | ImageOk

  /** The two checks `handleImageUpload` makes before uploading: the type
      first, then the size. */
  function CheckImage(mimeType: string, size: nat): (v: ImageCheck)
    ensures v == ImageOk <==> StartsWith(mimeType, "image/") && size <= MaxImageBytes
    ensures v == InvalidType <==> !StartsWith(mimeType, "image/")
    ensures v == TooLarge ==> size > MaxImageBytes
  {
    if !StartsWith(mimeType, "image/") then InvalidType
    else if size > MaxImageBytes then TooLarge
    else ImageOk
  }

  /** An image of exactly 5 MiB passes, one byte more does not. */
  lemma SizeCapIsInclusive(mimeType: string)
    requires StartsWith(mimeType, "image/")
    ensures CheckImage(mimeType, 5242880) == ImageOk
    ensures CheckImage(mimeType, 5242881) == TooLarge
  {
  }

  datatype File = File(name: string, mimeType: string, size: nat)

  datatype UploadOutcome =
    | NoUpload
    | Refused(reason: ImageCheck)
    | UploadFailed(path: string)
    | Uploaded(path: string)

  const PictureFolder: string := "profile-pictures/"

  /** `profile-pictures/<user id>-<now>.<extension>`. */
  function UploadPath(userId: string, fileName: string, now: nat): (path: string)
    ensures StartsWith(path, PictureFolder + userId + "-" + DecimalString(now) + ".")
    ensures |LastSegment(fileName)| < |path| && path[|path| - |LastSegment(fileName)|..] == LastSegment(fileName)
    ensures |path| == |PictureFolder + userId + "-" + DecimalString(now) + "."| + |LastSegment(fileName)|
  {
    var prefix := PictureFolder + userId + "-" + DecimalString(now) + ".";
    var path := prefix + LastSegment(fileName);
    assert path[..|prefix|] == prefix;
    path
  }

  /** The stored file keeps the extension of the file the user picked. */
  lemma UploadKeepsExtension(userId: string, fileName: string, now: nat)
    ensures LastSegment(UploadPath(userId, fileName, now)) == LastSegment(fileName)
  {
    var prefix := PictureFolder + userId + "-" + DecimalString(now) + ".";
    assert UploadPath(userId, fileName, now) == prefix + LastSegment(fileName);
    LastSegmentAfterDot(prefix, LastSegment(fileName));
  }

  /** `handleImageUpload`: with no file or nobody signed in nothing
      happens; a file that fails a check is refused before any upload; a
      successful upload sets the picture to `publicUrl` and changes
      nothing else. */
  function UploadImage(e: Editor, user: Option<User>, file: Option<File>, now: nat,
                       uploadOk: bool, publicUrl: string): (r: (Editor, UploadOutcome))
    ensures r.1.NoUpload? <==> file.None? || user.None? || user.value.id == ""
    ensures r.1.Refused? ==> r.1.reason == CheckImage(file.value.mimeType, file.value.size) && r.1.reason != ImageOk
    ensures (r.1.Uploaded? || r.1.UploadFailed?) ==>
              CheckImage(file.value.mimeType, file.value.size) == ImageOk
              && r.1.path == UploadPath(user.value.id, file.value.name, now)
    ensures r.1.Uploaded? <==> !r.1.NoUpload? && CheckImage(file.value.mimeType, file.value.size) == ImageOk && uploadOk
    ensures r.1.Uploaded? ==> r.0 == e.(form := e.form.(profilePicture := publicUrl))
    ensures !r.1.Uploaded? ==> r.0 == e
  {
    if file.None? || user.None? || user.value.id == "" then (e, NoUpload)
    else
      var f := file.value;
      var check := CheckImage(f.mimeType, f.size);
      if check != ImageOk then (e, Refused(check))
      else
        var path := UploadPath(user.value.id, f.name, now);
        if !uploadOk then (e, UploadFailed(path))
        else (e.(form := e.form.(profilePicture := publicUrl)), Uploaded(path))
  }

  // ------------------------------------------------------------------ save

  /** `x || null` for a text field. */
  function NullIfEmpty(s: string): (o: Option<string>)
    ensures o.GetOr("") == s
    ensures o.Some? ==> o.value != ""
  {
    if s == "" then None else Some(s)
  }

  /** The row `handleSave` writes for a signed-in user. */
  function SaveRow(user: User, f: Form): (row: ProfileRow)
    ensures row.userId == user.id && row.email == Some(user.email)
    ensures row.name == Trim(f.name)
    ensures row.location.GetOr("") == f.location && row.profilePicture.GetOr("") == f.profilePicture
    ensures row.location != Some("") && row.profilePicture != Some("")
    ensures row.skillsOffered == Some(f.skillsOffered) && row.skillsWanted == Some(f.skillsWanted)
    ensures row.availability == Some(f.availability) && row.isPublic == Some(f.isPublic)
  {
    ProfileRow(user.id, Trim(f.name), Some(user.email), NullIfEmpty(f.location),
               Some(f.skillsOffered), Some(f.skillsWanted), Some(f.availability),
               Some(f.isPublic), NullIfEmpty(f.profilePicture))
  }

  datatype SaveOutcome =
    | NotLoggedIn
    | NameRequired
    | Written(row: ProfileRow, update: bool, ok: bool)

  /** `handleSave`: refused when nobody is signed in or the trimmed name is
      empty; otherwise the row is written, as an update when a stored row
      was found and as an insert when not, and after a successful write
      the editor knows a row exists. The form itself is never changed. */
  function Save(e: Editor, user: Option<User>, writeOk: bool): (r: (Editor, SaveOutcome))
    ensures r.1.NotLoggedIn? <==> user.None? || user.value.id == ""
    ensures r.1.NameRequired? <==> !r.1.NotLoggedIn? && AllSpace(e.form.name)
    ensures r.1.Written? ==>
              r.1.row == SaveRow(user.value, e.form) && r.1.update == e.hasExisting
              && r.1.ok == writeOk && r.1.row.name != ""
    ensures r.0.hasExisting <==> e.hasExisting || (r.1.Written? && writeOk)
    ensures r.0.form == e.form
  {
    if user.None? || user.value.id == "" then (e, NotLoggedIn)
    else if Trim(e.form.name) == "" then (e, NameRequired)
    else
      var row := SaveRow(user.value, e.form);
      (if writeOk then e.(hasExisting := true) else e, Written(row, e.hasExisting, writeOk))
  }

  // ------------------------------------------------------------------ load

  /** The form a stored row fills in (`loadProfile`): the row's name, else
      the user's; `''` and `[]` for what is missing; public unless stored
      as exactly `false`. */
  function FromRow(row: ProfileRow, user: User): (f: Form)
    ensures f.name == (if row.name != "" then row.name else user.name)
    ensures f.isPublic <==> row.isPublic != Some(false)
    ensures row.location.None? ==> f.location == ""
    ensures row.location.Some? ==> f.location == row.location.value
    ensures row.skillsOffered.None? ==> f.skillsOffered == []
    ensures row.skillsOffered.Some? ==> f.skillsOffered == row.skillsOffered.value
    ensures row.skillsWanted.None? ==> f.skillsWanted == []
    ensures row.skillsWanted.Some? ==> f.skillsWanted == row.skillsWanted.value
    ensures row.availability.None? ==> f.availability == []
    ensures row.availability.Some? ==> f.availability == row.availability.value
    ensures row.profilePicture.None? ==> f.profilePicture == ""
    ensures row.profilePicture.Some? ==> f.profilePicture == row.profilePicture.value
  {
    Form(if row.name != "" then row.name else user.name,
         row.location.GetOr(""),
         row.skillsOffered.GetOr([]), row.skillsWanted.GetOr([]), row.availability.GetOr([]),
         row.isPublic != Some(false), row.profilePicture.GetOr(""))
  }

  /** `loadProfile`. `fetched` is the query's outcome: an error, no row, or
      the user's row. Nobody signed in or an error leaves the editor as it
      is; no row keeps the form but takes the user's name. */
  function LoadProfile(e: Editor, user: Option<User>, fetched: Result<Option<ProfileRow>, string>): (r: Editor)
    ensures user.None? || user.value.id == "" || fetched.Err? ==> r == e
    ensures user.Some? && user.value.id != "" && fetched.Ok? && fetched.value.Some? ==>
              r.hasExisting && r.form == FromRow(fetched.value.value, user.value)
    ensures user.Some? && user.value.id != "" && fetched.Ok? && fetched.value.None? ==>
              !r.hasExisting && r.form == e.form.(name := user.value.name)
    ensures r.newSkillOffered == e.newSkillOffered && r.newSkillWanted == e.newSkillWanted
  {
    if user.None? || user.value.id == "" || fetched.Err? then e
    else match fetched.value
      case Some(row) => e.(form := FromRow(row, user.value), hasExisting := true)
      case None => e.(form := e.form.(name := user.value.name), hasExisting := false)
  }

  /** Saving and loading back gives the form again, with its name trimmed. */
  lemma LoadAfterSave(user: User, f: Form)
    requires !AllSpace(f.name)
    ensures FromRow(SaveRow(user, f), user) == f.(name := Trim(f.name))
  {
  }

  /** A page reload after a successful save shows what was saved. */
  lemma SaveThenReload(e: Editor, user: User)
    requires user.id != "" && !AllSpace(e.form.name)
    ensures var (e1, out) := Save(e, Some(user), true);
            && out.Written?
            && LoadProfile(e1, Some(user), Ok(Some(out.row))).form == e.form.(name := Trim(e.form.name))
            && LoadProfile(e1, Some(user), Ok(Some(out.row))).hasExisting
  {
    LoadAfterSave(user, e.form);
  }

  /** A saved public profile is listed to every other visitor of the
      directory, and its card shows what the form held. */
  lemma SavedProfileIsListed(user: User, f: Form, viewer: Option<string>)
    requires f.isPublic && viewer.GetOr("") != user.id
    ensures Directory.Listed(SaveRow(user, f), viewer)
    ensures Directory.ToCard(SaveRow(user, f))
            == Directory.Card(user.id, Trim(f.name), f.location, f.skillsOffered, f.skillsWanted, f.availability, true)
  {
  }
}

=== FILE: records.dfy ===
/** The records the browser-local half of the application keeps, and the
    browser storage itself as a key-to-entry map. */
module Records {
  import opened Optional

  datatype Role = Member | Admin

  /** The signed-in account of the mock session (`User` in AuthContext). */
  datatype User = User(id: string, email: string, name: string, role: Role)

  datatype Status = Pending | Accepted | Rejected

  /** A swap request as the Requests and Admin pages hold it. */
  datatype SwapRequest = SwapRequest(
    id: string,
    fromUserId: string,
    fromUserName: string,
    toUserId: string,
    toUserName: string,
    message: string,
    status: Status,
    createdAt: string)

  /** A profile as the Admin page reads it from browser storage. */
  datatype LocalProfile = LocalProfile(
    id: string,
    name: string,
    email: Option<string>,
    location: string,
    skillsOffered: seq<string>,
    skillsWanted: seq<string>,
    availability: seq<string>,
    isPublic: bool)

  /** What a storage key holds once its JSON text is parsed. */
  datatype Entry =
    | UserEntry(user: User)
    | ProfileEntry(profile: LocalProfile)
    | RequestsEntry(requests: seq<SwapRequest>)

  /** Browser `localStorage`: one flat namespace of keys. */
  type Store = map<string, Entry>

  const SessionKey: string := "skillswap_user"
  const RequestsKey: string := "swap_requests"
  const ProfileKeyPrefix: string := "profile_"

  function ProfileKey(userId: string): string {
    ProfileKeyPrefix + userId
  }

  /** The request list under `swap_requests`, the empty list when the key
      is absent (`getItem(...) || '[]'`). */
  function StoredRequests(store: Store): (rs: seq<SwapRequest>)
    ensures RequestsKey !in store ==> rs == []
    ensures RequestsKey in store && store[RequestsKey].RequestsEntry? ==> rs == store[RequestsKey].requests
  {
    if RequestsKey in store && store[RequestsKey].RequestsEntry? then store[RequestsKey].requests else []
  }

  /** Profile keys never collide with the session key or the request
      list key, so writing one never disturbs the others. */
  lemma ProfileKeysAreDistinct(userId: string)
    ensures ProfileKey(userId) != SessionKey
    ensures ProfileKey(userId) != RequestsKey
  {
    assert ProfileKey(userId)[0] == 'p';
    assert ProfileKey(userId)[1] == 'r';
  }
}

=== FILE: requests.dfy ===
/** The swap-request page: the viewer's sent and received lists and the
    accept, reject and withdraw handlers, all over the full request list
    held in browser storage. The handlers act on every request carrying the
    given id; they check neither who the viewer is nor the current status.
    The only guard is which buttons the page renders. */
module Requests {
  import opened Optional
  import opened Records
  import opened Seqs

  // ------------------------------------------------------------- the lists

  /** `req.fromUserId === user?.id`: with nobody signed in, nothing matches. */
  predicate IsFrom(viewer: Option<string>, q: SwapRequest) {
    viewer.Some? && q.fromUserId == viewer.value
  }

  predicate IsTo(viewer: Option<string>, q: SwapRequest) {
    viewer.Some? && q.toUserId == viewer.value
  }

  /** Requests the viewer sent, in stored order. */
  function Sent(rs: seq<SwapRequest>, viewer: Option<string>): (r: seq<SwapRequest>)
    ensures forall q :: q in r <==> q in rs && viewer == Some(q.fromUserId)
    ensures IsSubsequence(r, rs)
    ensures |r| == Count(rs, q => IsFrom(viewer, q))
    ensures viewer.None? ==> r == []
  {
    var r := Filter(rs, q => IsFrom(viewer, q));
    assert |r| > 0 ==> r[0] in r;
    r
  }

  /** Requests addressed to the viewer, in stored order. */
  function Received(rs: seq<SwapRequest>, viewer: Option<string>): (r: seq<SwapRequest>)
    ensures forall q :: q in r <==> q in rs && viewer == Some(q.toUserId)
    ensures IsSubsequence(r, rs)
    ensures |r| == Count(rs, q => IsTo(viewer, q))
    ensures viewer.None? ==> r == []
  {
    var r := Filter(rs, q => IsTo(viewer, q));
    assert |r| > 0 ==> r[0] in r;
    r
  }

  // ------------------------------------------------------------ the handlers

  /** `requests.map(req => req.id === id ? {...req, status} : req)`. */
  function SetStatus(rs: seq<SwapRequest>, id: string, st: Status): (r: seq<SwapRequest>)
    ensures |r| == |rs|
    ensures forall i :: 0 <= i < |rs| && rs[i].id == id ==> r[i] == rs[i].(status := st)
    ensures forall i :: 0 <= i < |rs| && rs[i].id != id ==> r[i] == rs[i]
  {
    if |rs| == 0 then []
    else [if rs[0].id == id then rs[0].(status := st) else rs[0]] + SetStatus(rs[1..], id, st)
  }

  /** `handleAcceptRequest`. */
  function Accept(rs: seq<SwapRequest>, id: string): (r: seq<SwapRequest>)
    ensures |r| == |rs|
    ensures forall i :: 0 <= i < |rs| ==>
              r[i] == if rs[i].id == id then rs[i].(status := Accepted) else rs[i]
  {
    SetStatus(rs, id, Accepted)
  }

  /** `handleRejectRequest`. */
  function Reject(rs: seq<SwapRequest>, id: string): (r: seq<SwapRequest>)
    ensures |r| == |rs|
    ensures forall i :: 0 <= i < |rs| ==>
              r[i] == if rs[i].id == id then rs[i].(status := Rejected) else rs[i]
  {
    SetStatus(rs, id, Rejected)
  }

  predicate HasId(id: string, q: SwapRequest) {
    q.id == id
  }

  /** `handleDeleteRequest`: drop every request carrying the id. */
  function Delete(rs: seq<SwapRequest>, id: string): (r: seq<SwapRequest>)
    ensures forall q :: q in r <==> q in rs && q.id != id
    ensures IsSubsequence(r, rs)
    ensures |r| == |rs| - Count(rs, q => HasId(id, q))
  {
    CountComplement(rs, q => !HasId(id, q), q => HasId(id, q));
    Filter(rs, q => !HasId(id, q))
  }

  // -------------------------------------------------------- the page's guard

  /** Accept and Reject are rendered only on a received, pending request. */
  predicate AnswerOffered(rs: seq<SwapRequest>, viewer: Option<string>, q: SwapRequest) {
    q in Received(rs, viewer) && q.status == Pending
  }

  /** The delete button is rendered only on a sent, pending request. */
  predicate WithdrawOffered(rs: seq<SwapRequest>, viewer: Option<string>, q: SwapRequest) {
    q in Sent(rs, viewer) && q.status == Pending
  }

  /** Clicking Accept on a request card. */
  function ClickAccept(rs: seq<SwapRequest>, viewer: Option<string>, q: SwapRequest): (r: seq<SwapRequest>)
    requires AnswerOffered(rs, viewer, q)
    ensures |r| == |rs|
    ensures q.(status := Accepted) in Received(r, viewer)
    ensures !AnswerOffered(r, viewer, q.(status := Accepted))
    ensures forall p :: p in rs && p.id != q.id ==> p in r
  {
    var r := Accept(rs, q.id);
    var i :| 0 <= i < |rs| && rs[i] == q;
    assert r[i] == q.(status := Accepted);
    r
  }

  /** Clicking Reject on a request card. */
  function ClickReject(rs: seq<SwapRequest>, viewer: Option<string>, q: SwapRequest): (r: seq<SwapRequest>)
    requires AnswerOffered(rs, viewer, q)
    ensures |r| == |rs|
    ensures q.(status := Rejected) in Received(r, viewer)
    ensures !AnswerOffered(r, viewer, q.(status := Rejected))
    ensures forall p :: p in rs && p.id != q.id ==> p in r
  {
    var r := Reject(rs, q.id);
    var i :| 0 <= i < |rs| && rs[i] == q;
    assert r[i] == q.(status := Rejected);
    r
  }

  /** Clicking the delete button on a sent request card. */
  function ClickDelete(rs: seq<SwapRequest>, viewer: Option<string>, q: SwapRequest): (r: seq<SwapRequest>)
    requires WithdrawOffered(rs, viewer, q)
    ensures q !in r && q !in Sent(r, viewer)
    ensures |r| < |rs|
    ensures forall p :: p in rs && p.id != q.id ==> p in r
  {
    CountMember(rs, q0 => HasId(q.id, q0), q);
    Delete(rs, q.id)
  }

  // ---------------------------------------------------------------- laws

  /** Setting a status twice keeps only the second: accepting or rejecting
      the same id twice is the same as doing it once, and a later click
      overrides an earlier answer (no status is terminal). */
  lemma {:induction false} LastStatusWins(rs: seq<SwapRequest>, id: string, s1: Status, s2: Status)
    ensures SetStatus(SetStatus(rs, id, s1), id, s2) == SetStatus(rs, id, s2)
  {
    var a := SetStatus(SetStatus(rs, id, s1), id, s2);
    var b := SetStatus(rs, id, s2);
    assert |a| == |b|;
    forall i | 0 <= i < |a|
      ensures a[i] == b[i]
    {
    }
  }

  lemma AcceptIdempotent(rs: seq<SwapRequest>, id: string)
    ensures Accept(Accept(rs, id), id) == Accept(rs, id)
  {
    LastStatusWins(rs, id, Accepted, Accepted);
  }

  lemma RejectIdempotent(rs: seq<SwapRequest>, id: string)
    ensures Reject(Reject(rs, id), id) == Reject(rs, id)
  {
    LastStatusWins(rs, id, Rejected, Rejected);
  }

  /** A rejected request accepted afterwards ends up accepted: the
      handlers do not treat `rejected` as final. */
  lemma AcceptAfterReject(rs: seq<SwapRequest>, id: string)
    ensures Accept(Reject(rs, id), id) == Accept(rs, id)
  {
    LastStatusWins(rs, id, Rejected, Accepted);
  }

  /** A status change never moves a request between the viewer's lists:
      the sent list after the change is the old sent list with the same
      change applied. */
  lemma {:induction false} SentIgnoresStatus(rs: seq<SwapRequest>, viewer: Option<string>, id: string, st: Status)
    ensures Sent(SetStatus(rs, id, st), viewer) == SetStatus(Sent(rs, viewer), id, st)
    decreases |rs|
  {
    if |rs| != 0 {
      SentIgnoresStatus(rs[1..], viewer, id, st);
      assert SetStatus(rs, id, st)[1..] == SetStatus(rs[1..], id, st);
    }
  }

  lemma {:induction false} ReceivedIgnoresStatus(rs: seq<SwapRequest>, viewer: Option<string>, id: string, st: Status)
    ensures Received(SetStatus(rs, id, st), viewer) == SetStatus(Received(rs, viewer), id, st)
    decreases |rs|
  {
    if |rs| != 0 {
      ReceivedIgnoresStatus(rs[1..], viewer, id, st);
      assert SetStatus(rs, id, st)[1..] == SetStatus(rs[1..], id, st);
    }
  }

  /** Deleting by id and then taking the sent list is the same as taking
      the sent list and deleting by id in it. */
  lemma SentAfterDelete(rs: seq<SwapRequest>, viewer: Option<string>, id: string)
    ensures Sent(Delete(rs, id), viewer) == Delete(Sent(rs, viewer), id)
  {
    FilterCommutes(rs, q => !HasId(id, q), q => IsFrom(viewer, q));
  }

  /** The request involves the viewer on either side. */
  predicate Involves(viewer: Option<string>, q: SwapRequest) {
    IsFrom(viewer, q) || IsTo(viewer, q)
  }

  /** Every request involving the viewer is listed, and a request is in
      both lists exactly when the viewer sent it to itself. */
  lemma SentReceivedCover(rs: seq<SwapRequest>, viewer: Option<string>)
    ensures forall q :: q in rs && Involves(viewer, q) ==> q in Sent(rs, viewer) || q in Received(rs, viewer)
    ensures forall q :: q in rs && Involves(viewer, q) && q.fromUserId == q.toUserId ==>
              q in Sent(rs, viewer) && q in Received(rs, viewer)
    ensures forall q :: q in Sent(rs, viewer) && q in Received(rs, viewer) ==> q.fromUserId == q.toUserId
  {
  }

  /** Without self-addressed requests the two lists together hold exactly
      as many entries as there are requests involving the viewer. */
  lemma {:induction false} SentReceivedPartition(rs: seq<SwapRequest>, viewer: Option<string>)
    requires forall i :: 0 <= i < |rs| ==> rs[i].fromUserId != rs[i].toUserId
    ensures |Sent(rs, viewer)| + |Received(rs, viewer)| == Count(rs, q => Involves(viewer, q))
    decreases |rs|
  {
    if |rs| != 0 {
      SentReceivedPartition(rs[1..], viewer);
    }
  }
}

=== FILE: seqs.dfy ===
/** Order-preserving filtering over immutable sequences: the one list
    operation (`Array.prototype.filter`) that every page handler of the
    skill-swap application is built from. */
module Seqs {

  /** `r` can be obtained from `s` by dropping elements, keeping the
      relative order of the rest. */
  ghost predicate IsSubsequence<T(!new)>(r: seq<T>, s: seq<T>)
    decreases |s|
  {
    if |r| == 0 then true
    else if |s| == 0 then false
    else (r[0] == s[0] && IsSubsequence(r[1..], s[1..])) || IsSubsequence(r, s[1..])
  }

  /** Number of elements of `s` that satisfy `keep`. */
  function Count<T(!new)>(s: seq<T>, keep: T -> bool): (n: nat)
    ensures n <= |s|
  {
    if |s| == 0 then 0
    else (if keep(s[0]) then 1 else 0) + Count(s[1..], keep)
  }

  /** The elements of `s` satisfying `keep`, in their original order. */
  function Filter<T(!new)>(s: seq<T>, keep: T -> bool): (r: seq<T>)
    ensures forall x :: x in r <==> x in s && keep(x)
    ensures IsSubsequence(r, s)
    ensures |r| == Count(s, keep)
  {
    if |s| == 0 then []
    else if keep(s[0]) then
      var rest := Filter(s[1..], keep);
      assert ([s[0]] + rest)[1..] == rest;
      [s[0]] + rest
    else Filter(s[1..], keep)
  }

  /** An element that satisfies `keep` is counted. */
  lemma {:induction false} CountMember<T(!new)>(s: seq<T>, keep: T -> bool, x: T)
    requires x in s && keep(x)
    ensures Count(s, keep) >= 1
    decreases |s|
  {
    if s[0] != x {
      CountMember(s[1..], keep, x);
    }
  }

  /** Filtering distributes over concatenation. */
  lemma {:induction false} FilterConcat<T(!new)>(a: seq<T>, b: seq<T>, keep: T -> bool)
    ensures Filter(a + b, keep) == Filter(a, keep) + Filter(b, keep)
    decreases |a|
  {
    if |a| == 0 {
      assert a + b == b;
    } else {
      assert (a + b)[1..] == a[1..] + b;
      FilterConcat(a[1..], b, keep);
    }
  }

  /** Counting distributes over concatenation. */
  lemma {:induction false} CountConcat<T(!new)>(a: seq<T>, b: seq<T>, keep: T -> bool)
    ensures Count(a + b, keep) == Count(a, keep) + Count(b, keep)
    decreases |a|
  {
    if |a| == 0 {
      assert a + b == b;
    } else {
      assert (a + b)[1..] == a[1..] + b;
      CountConcat(a[1..], b, keep);
    }
  }

  /** Two predicates that agree on every element of `s` select the same
      elements. */
  lemma {:induction false} FilterExtensional<T(!new)>(s: seq<T>, p: T -> bool, q: T -> bool)
    requires forall x :: x in s ==> p(x) == q(x)
    ensures Filter(s, p) == Filter(s, q)
    decreases |s|
  {
    if |s| != 0 {
      assert forall x :: x in s[1..] ==> x in s;
      FilterExtensional(s[1..], p, q);
    }
  }

  /** A predicate every element satisfies leaves the sequence unchanged. */
  lemma {:induction false} FilterKeepsAll<T(!new)>(s: seq<T>, keep: T -> bool)
    requires forall x :: x in s ==> keep(x)
    ensures Filter(s, keep) == s
    decreases |s|
  {
    if |s| != 0 {
      assert forall x :: x in s[1..] ==> x in s;
      FilterKeepsAll(s[1..], keep);
      assert s == [s[0]] + s[1..];
    }
  }

  /** The order of two successive filters does not matter. */
  lemma {:induction false} FilterCommutes<T(!new)>(s: seq<T>, p: T -> bool, q: T -> bool)
    ensures Filter(Filter(s, p), q) == Filter(Filter(s, q), p)
    decreases |s|
  {
    if |s| != 0 {
      FilterCommutes(s[1..], p, q);
      var h := [s[0]];
      assert s == h + s[1..];
      FilterConcat(h, s[1..], p);
      FilterConcat(h, s[1..], q);
      FilterConcat(Filter(h, p), Filter(s[1..], p), q);
      FilterConcat(Filter(h, q), Filter(s[1..], q), p);
    }
  }

  /** Filtering by a conjunction is filtering by one conjunct, then by the
      other. */
  lemma {:induction false} FilterConjunction<T(!new)>(s: seq<T>, p: T -> bool, q: T -> bool, pq: T -> bool)
    requires forall x :: x in s ==> pq(x) == (p(x) && q(x))
    ensures Filter(s, pq) == Filter(Filter(s, p), q)
    decreases |s|
  {
    if |s| != 0 {
      assert forall x :: x in s[1..] ==> x in s;
      FilterConjunction(s[1..], p, q, pq);
      if p(s[0]) {
        assert Filter(s, p) == [s[0]] + Filter(s[1..], p);
        assert Filter(s, p)[1..] == Filter(s[1..], p);
      }
    }
  }

  /** Elements kept and elements dropped together account for the whole
      sequence. */
  lemma {:induction false} CountComplement<T(!new)>(s: seq<T>, keep: T -> bool, drop: T -> bool)
    requires forall x :: x in s ==> drop(x) == !keep(x)
    ensures Count(s, keep) + Count(s, drop) == |s|
    decreases |s|
  {
    if |s| != 0 {
      assert forall x :: x in s[1..] ==> x in s;
      CountComplement(s[1..], keep, drop);
    }
  }
}

=== FILE: session.dfy ===
/** The mock authentication context: login, registration and logout over
    an optional signed-in user, persisted in browser storage under one key,
    plus the two flags the pages read (`isAuthenticated`, `isAdmin`). */
module Session {
  import opened Optional
  import opened Records
  import opened Text

  /** The one address the mock login treats as an administrator. */
  const AdminEmail: string := "admin@skillswap.com"

  datatype State = State(user: Option<User>, store: Store)

  /** `!!user`. */
  predicate IsAuthenticated(st: State) {
    st.user.Some?
  }

  /** `user?.role === 'admin'`. */
  predicate IsAdmin(st: State) {
    st.user.Some? && st.user.value.role == Admin
  }

  /** The user kept under `skillswap_user`, when there is one. */
  function Saved(store: Store): Option<User> {
    if SessionKey in store && store[SessionKey].UserEntry? then Some(store[SessionKey].user) else None
  }

  /** On mount: resume the saved user, or start signed out. */
  function Restore(store: Store): (st: State)
    ensures st.store == store
    ensures IsAuthenticated(st) <==> SessionKey in store && store[SessionKey].UserEntry?
    ensures IsAuthenticated(st) ==> st.user.value == store[SessionKey].user
  {
    State(Saved(store), store)
  }

  /** The account the mock login hands out: always id `"1"`, an
      administrator exactly for `AdminEmail`. */
  function MockAccount(email: string): (u: User)
    ensures u.id == "1" && u.email == email
    ensures u.role == Admin <==> email == AdminEmail
    ensures u.name == "Admin User" <==> email == AdminEmail
    ensures u.name == "John Doe" <==> email != AdminEmail
  {
    if email == AdminEmail then User("1", email, "Admin User", Admin)
    else User("1", email, "John Doe", Member)
  }

  /** Sign in as `user` and try to persist it. The user is set before the
      write; a write that throws (`storageOk == false`) leaves the user set,
      the storage untouched, and the call answers `false`. */
  function SignIn(st: State, user: User, storageOk: bool): (r: (State, bool))
    ensures r.0.user == Some(user)
    ensures r.1 == storageOk
    ensures storageOk ==> Saved(r.0.store) == Some(user)
    ensures storageOk ==> r.0.store.Keys == st.store.Keys + {SessionKey}
    ensures forall k :: k in st.store && k != SessionKey ==> k in r.0.store && r.0.store[k] == st.store[k]
    ensures !storageOk ==> r.0.store == st.store
  {
    if storageOk then (State(Some(user), st.store[SessionKey := UserEntry(user)]), true)
    else (State(Some(user), st.store), false)
  }

  /** `login`: the password is never looked at. */
  function Login(st: State, email: string, password: string, storageOk: bool): (r: (State, bool))
    ensures r.0.user == Some(MockAccount(email))
    ensures IsAdmin(r.0) <==> email == AdminEmail
    ensures r.1 == storageOk
    ensures storageOk ==> Saved(r.0.store) == Some(MockAccount(email))
    ensures forall k :: k in st.store && k != SessionKey ==> k in r.0.store && r.0.store[k] == st.store[k]
    ensures !storageOk ==> r.0.store == st.store
  {
    SignIn(st, MockAccount(email), storageOk)
  }

  /** `register`: a plain user with the given name and address, whose id
      is the decimal clock reading `now` (`Date.now().toString()`). */
  function Register(st: State, email: string, password: string, name: string, now: nat, storageOk: bool): (r: (State, bool))
    ensures r.0.user.Some? && r.0.user.value.role == Member
    ensures r.0.user.value.name == name && r.0.user.value.email == email
    ensures r.0.user.value.id == DecimalString(now) && DecimalValue(r.0.user.value.id) == now
    ensures !IsAdmin(r.0) && IsAuthenticated(r.0)
    ensures r.1 == storageOk
    ensures storageOk ==> Saved(r.0.store) == r.0.user
    ensures forall k :: k in st.store && k != SessionKey ==> k in r.0.store && r.0.store[k] == st.store[k]
    ensures !storageOk ==> r.0.store == st.store
  {
    DecimalRoundTrip(now);
    SignIn(st, User(DecimalString(now), email, name, Member), storageOk)
  }

  /** `logout`: forget the user and its storage key. */
  function Logout(st: State): (r: State)
    ensures !IsAuthenticated(r) && !IsAdmin(r)
    ensures SessionKey !in r.store
    ensures r.store.Keys == st.store.Keys - {SessionKey}
    ensures forall k :: k in r.store ==> r.store[k] == st.store[k]
  {
    State(None, st.store - {SessionKey})
  }

  // ---------------------------------------------------------------- laws

  /** Only a signed-in user can be an administrator. */
  lemma AdminIsAuthenticated(st: State)
    ensures IsAdmin(st) ==> IsAuthenticated(st)
  {
  }

  /** A page reload after a successful login resumes the same user. */
  lemma LoginSurvivesReload(st: State, email: string, password: string)
    ensures var r := Login(st, email, password, true);
            Restore(r.0.store).user == r.0.user
  {
  }

  /** A page reload after a successful registration resumes the same
      user. */
  lemma RegisterSurvivesReload(st: State, email: string, password: string, name: string, now: nat)
    ensures var r := Register(st, email, password, name, now, true);
            Restore(r.0.store).user == r.0.user
  {
  }

  /** After logout a reload finds nobody, whoever was signed in. */
  lemma LogoutSurvivesReload(st: State)
    ensures !IsAuthenticated(Restore(Logout(st).store))
  {
  }

  /** The role never depends on the password. */
  lemma LoginIgnoresPassword(st: State, email: string, p1: string, p2: string, ok: bool)
    ensures Login(st, email, p1, ok) == Login(st, email, p2, ok)
  {
  }
}

=== FILE: tables.dfy ===
/** The rows of the two hosted tables the Browse and Profile pages use,
    `profiles` and `swap_requests`. A nullable column is an `Option`. */
module Tables {
  import opened Optional

  /** A `profiles` row. */
  datatype ProfileRow = ProfileRow(
    userId: string,
    name: string,
    email: Option<string>,
    location: Option<string>,
    skillsOffered: Option<seq<string>>,
    skillsWanted: Option<seq<string>>,
    availability: Option<seq<string>>,
    isPublic: Option<bool>,
    profilePicture: Option<string>)

  /** A `swap_requests` row as the Browse pages insert it; the id and the
      creation time are filled in by the database. */
  datatype RequestRow = RequestRow(
    fromUserId: string,
    fromUserName: string,
    toUserId: string,
    toUserName: string,
    message: string,
    status: string)

  const PendingStatus: string := "pending"

  const GreetingOpen: string := "Hi "
  const GreetingClose: string := "! I'd love to connect for a skill exchange."

  /** The fixed message of a new request, addressed to `name`. */
  function Greeting(name: string): (m: string)
    ensures |m| == |GreetingOpen| + |name| + |GreetingClose|
    ensures m[..|GreetingOpen|] == GreetingOpen
    ensures m[|GreetingOpen|..|GreetingOpen| + |name|] == name
    ensures m[|GreetingOpen| + |name|..] == GreetingClose
  {
    GreetingOpen + name + GreetingClose
  }

  /** The greeting names its addressee: two greetings are equal exactly
      when they address the same name. */
  lemma GreetingInjective(a: string, b: string)
    ensures Greeting(a) == Greeting(b) <==> a == b
  {
    if Greeting(a) == Greeting(b) {
      assert |a| == |b|;
      assert a == Greeting(a)[|GreetingOpen|..|GreetingOpen| + |a|];
    }
  }
}

=== FILE: text.dfy ===
/** The JavaScript string primitives the page handlers rely on, over
    `string = seq<char>`: `toLowerCase` (ASCII letters only), `includes`,
    `startsWith`, `trim`, `Number.prototype.toString` on naturals and the
    `split('.').pop()` file-extension idiom. */
module Text {

  // ---------------------------------------------------------------- case

  function LowerChar(c: char): char {
    if 'A' <= c <= 'Z' then (c as int + 32) as char else c
  }

  /** `s.toLowerCase()`, restricted to the ASCII upper-case letters. */
  function Lower(s: string): (r: string)
    ensures |r| == |s|
    ensures forall i :: 0 <= i < |r| ==> !('A' <= r[i] <= 'Z')
    ensures forall i :: 0 <= i < |s| && !('A' <= s[i] <= 'Z') ==> r[i] == s[i]
    ensures forall i :: 0 <= i < |s| && 'A' <= s[i] <= 'Z' ==> r[i] as int == s[i] as int + 32
  {
    seq(|s|, i requires 0 <= i < |s| => LowerChar(s[i]))
  }

  /** Lower-casing is a projection: doing it twice changes nothing more. */
  lemma LowerIdempotent(s: string)
    ensures Lower(Lower(s)) == Lower(s)
    ensures |Lower(s)| == |s|
  {
    assert forall i :: 0 <= i < |s| ==> LowerChar(LowerChar(s[i])) == LowerChar(s[i]);
  }

  /** Lower-casing works character by character, so it distributes over
      concatenation. */
  lemma LowerConcat(a: string, b: string)
    ensures Lower(a + b) == Lower(a) + Lower(b)
  {
    assert forall i :: 0 <= i < |a| ==> (a + b)[i] == a[i];
    assert forall i :: |a| <= i < |a| + |b| ==> (a + b)[i] == b[i - |a|];
  }

  // ------------------------------------------------------------ searching

  predicate OccursAt(hay: string, needle: string, i: int) {
    0 <= i <= |hay| - |needle| && hay[i..i + |needle|] == needle
  }

  /** `hay.includes(needle)`: `needle` occurs as a contiguous block. */
  predicate Includes(hay: string, needle: string) {
    exists i | 0 <= i <= |hay| - |needle| :: OccursAt(hay, needle, i)
  }

  /** `s.startsWith(prefix)`. */
  predicate StartsWith(s: string, prefix: string) {
    |prefix| <= |s| && s[..|prefix|] == prefix
  }

  /** Every string includes itself. */
  lemma IncludesSelf(s: string)
    ensures Includes(s, s)
  {
    assert OccursAt(s, s, 0);
  }

  /** A string that contains `a + b` contains `a`: lengthening a search
      term can only lose matches. */
  lemma IncludesPrefix(hay: string, a: string, b: string)
    requires Includes(hay, a + b)
    ensures Includes(hay, a)
  {
    var i :| 0 <= i <= |hay| - |a + b| && OccursAt(hay, a + b, i);
    assert hay[i..i + |a|] == (a + b)[..|a|];
    assert OccursAt(hay, a, i);
  }

  // ---------------------------------------------------------------- trim

  /** The characters `String.prototype.trim` removes: ECMAScript
      WhiteSpace (TAB, VT, FF, ZWNBSP and every Unicode space separator)
      and LineTerminator (LF, CR, LS, PS). */
  predicate IsJsSpace(c: char) {
    || c == '\t' || c == '\U{000B}' || c == '\U{000C}' || c == '\U{FEFF}'
    || c == ' ' || c == '\U{00A0}' || c == '\U{1680}'
    || ('\U{2000}' <= c <= '\U{200A}')
    || c == '\U{202F}' || c == '\U{205F}' || c == '\U{3000}'
    || c == '\n' || c == '\r' || c == '\U{2028}' || c == '\U{2029}'
  }

  predicate AllSpace(s: string) {
    forall k :: 0 <= k < |s| ==> IsJsSpace(s[k])
  }

  /** First index at or after `i` that is not white space (or `|s|`). */
  function SkipSpace(s: string, i: nat): (n: nat)
    requires i <= |s|
    ensures i <= n <= |s|
    ensures forall k :: i <= k < n ==> IsJsSpace(s[k])
    ensures n == |s| || !IsJsSpace(s[n])
    decreases |s| - i
  {
    if i < |s| && IsJsSpace(s[i]) then SkipSpace(s, i + 1) else i
  }

  /** Least index `m >= lo` such that `s[m..j]` is all white space. */
  function BackSpace(s: string, lo: nat, j: nat): (m: nat)
    requires lo <= j <= |s|
    ensures lo <= m <= j
    ensures forall k :: m <= k < j ==> IsJsSpace(s[k])
    ensures m == lo || !IsJsSpace(s[m - 1])
    decreases j - lo
  {
    if lo < j && IsJsSpace(s[j - 1]) then BackSpace(s, lo, j - 1) else j
  }

  /** `r` is `s` with a white-space-only prefix `s[..i]` and suffix
      `s[j..]` cut off. */
  predicate TrimmedAt(s: string, r: string, i: int, j: int) {
    && 0 <= i <= j <= |s| && r == s[i..j]
    && (forall k :: 0 <= k < i ==> IsJsSpace(s[k]))
    && (forall k :: j <= k < |s| ==> IsJsSpace(s[k]))
  }

  /** `s.trim()`: `s` with its leading and trailing white space removed. */
  function Trim(s: string): (r: string)
    ensures exists i, j :: TrimmedAt(s, r, i, j)
    ensures |r| == 0 || (!IsJsSpace(r[0]) && !IsJsSpace(r[|r| - 1]))
    ensures r == "" <==> AllSpace(s)
  {
    var i := SkipSpace(s, 0);
    var j := BackSpace(s, i, |s|);
    assert TrimmedAt(s, s[i..j], i, j);
    s[i..j]
  }

  /** Trimming an already trimmed string changes nothing. */
  lemma TrimIdempotent(s: string)
    ensures Trim(Trim(s)) == Trim(s)
  {
  }

  // --------------------------------------------------------------- numbers

  function DigitChar(d: nat): char
    requires d < 10
  {
    "0123456789"[d]
  }

  function DigitValue(c: char): nat {
    if '0' <= c <= '9' then c as int - '0' as int else 0
  }

  /** `n.toString()` for a natural number: its shortest decimal spelling. */
  function DecimalString(n: nat): (r: string)
    ensures |r| >= 1
    ensures forall k :: 0 <= k < |r| ==> '0' <= r[k] <= '9'
    ensures r[0] == '0' ==> n == 0
  {
    if n < 10 then [DigitChar(n)] else DecimalString(n / 10) + [DigitChar(n % 10)]
  }

  /** The number a string of decimal digits denotes. */
  function DecimalValue(s: string): nat {
    if |s| == 0 then 0 else 10 * DecimalValue(s[..|s| - 1]) + DigitValue(s[|s| - 1])
  }

  /** A digit character reads back as its digit. */
  lemma DigitRoundTrip(d: nat)
    requires d < 10
    ensures DigitValue(DigitChar(d)) == d
  {
  }

  /** Reading the decimal spelling back gives the number. */
  lemma {:induction false} DecimalRoundTrip(n: nat)
    ensures DecimalValue(DecimalString(n)) == n
  {
    var s := DecimalString(n);
    if n < 10 {
      DigitRoundTrip(n);
      assert s[..|s| - 1] == [];
    } else {
      var q, d := n / 10, n % 10;
      assert n == 10 * q + d;
      DecimalRoundTrip(q);
      DigitRoundTrip(d);
      assert s == DecimalString(q) + [DigitChar(d)];
      assert s[..|s| - 1] == DecimalString(q);
      assert DecimalValue(s) == 10 * DecimalValue(DecimalString(q)) + DigitValue(DigitChar(d));
    }
  }

  /** Distinct numbers have distinct spellings. */
  lemma DecimalInjective(m: nat, n: nat)
    ensures DecimalString(m) == DecimalString(n) ==> m == n
  {
    DecimalRoundTrip(m);
    DecimalRoundTrip(n);
  }

  // ------------------------------------------------------------ file names

  /** `name.split('.').pop()`: the text after the last `.`, or the whole
      name when it holds no `.`. */
  function LastSegment(name: string): (r: string)
    ensures '.' !in r
    ensures |r| <= |name| && r == name[|name| - |r|..]
    ensures |r| < |name| ==> name[|name| - |r| - 1] == '.'
    ensures '.' !in name ==> r == name
  {
    if |name| == 0 then ""
    else if name[|name| - 1] == '.' then ""
    else
      var r := LastSegment(name[..|name| - 1]);
      assert name[..|name| - 1][|name| - 1 - |r|..] == name[|name| - 1 - |r|..|name| - 1];
      r + [name[|name| - 1]]
  }

  /** After a final `.`, a dot-free tail is the extension. */
  lemma {:induction false} LastSegmentAfterDot(p: string, ext: string)
    requires |p| > 0 && p[|p| - 1] == '.' && '.' !in ext
    ensures LastSegment(p + ext) == ext
    decreases |ext|
  {
    if |ext| == 0 {
      assert p + ext == p;
    } else {
      var s := p + ext;
      var init := ext[..|ext| - 1];
      assert s[..|s| - 1] == p + init;
      assert '.' !in init by {
        assert forall k :: 0 <= k < |init| ==> init[k] == ext[k];
      }
      LastSegmentAfterDot(p, init);
      assert s[|s| - 1] == ext[|ext| - 1];
      assert ext == init + [ext[|ext| - 1]];
    }
  }
}
